=== FILE: README.md ===
# MSL authentication and token policy core, modelled in Dafny

This project models the policy core of the Message Security Layer (MSL):
- how entity authentication data, key exchange data and user authentication
  data are parsed from encoded objects and dispatched to a registry of
  factories;
- how an RSA or ECC factory resolves the keys for an entity;
- how the test token factory issues and renews master tokens and user ID
  tokens, and decides replay of non-replayable message IDs;
- how the message builder wraps message IDs, keeps its header flags
  consistent, maintains its name-keyed service token map and orders key
  exchange attempts;
- small utilities: JSON string quoting, encoder format detection, the
  power-of-two test behind the random message ID draw, case-insensitive
  comparison, the compression error mapping, null-aware dates, the preshared
  key store, and the mark/reset buffer of the buffered input stream.

Every operation is a pure function or a method over immutable datatypes. An
encoded object is a `map<string, Value>`. The encoder (bytes to object and
back) and the session crypto context (encrypt, decrypt, sign, verify) are
function-valued parameters. They come with soundness predicates
(`CodecSound`, `CryptoSound`) that only the round-trip lemmas assume.
`MAX_LONG_VALUE` and `MAX_MESSAGES` are the fields of a `Limits` parameter.
`Limits.Valid` requires 65536 < `maxLong` <= 2^63 - 1 and a non-negative
`maxMessages`. The clock, the random number generator and the key
exchange factories' `generateResponse` are parameters too.

Modules, one per file:
- `MslBase`: bytes, `Option`, the error taxonomy (`Kind`, `Code`, `Fault`), `Result`, `Limits`.
- `EncodedObject`: values, typed getters, and the codec and crypto parameters.
- `Tokens`: master tokens and user ID tokens.
- `EntityAuth`: entity authentication schemes, the master-token-protected composite, and key resolution.
- `MockTokenFactory`: the test token factory.
- `KeyExchange`: key request and response data.
- `UserAuth`: email/password user authentication.
- `MessageBuilder`: the message builder.
- `MslUtils`: the small utilities listed above.
- `EncoderFactory`: JSON quoting and encoder format detection.
- `BufferedStream`: the mark/reset buffer of the buffered input stream.
- `Dates`: null-aware dates.
- `PresharedKeyStore`: the test preshared key store.

Where the system's documented behaviour and its code disagree, the model follows the code:
- A non-replayable ID exactly one step outside the catch-up window
  (`largest - floor(MAX_MESSAGES/2)`) is not accepted. The check for IDs
  smaller than the largest reports it as unrecoverable unless the largest is
  near the top of the ID space (`CatchupEdgeUnrecoverable`).
- Equality of master-token-protected entity authentication data compares the
  master tokens as well as the encapsulated data. This is what the equality
  tests require.
- The test named "authenticate with user ID token" passes no token. The
  model covers both the token and no-token cases (`UserAuth.Authenticate`).
- Quoting escapes only the five named control characters. The source
  comments out the `\u` escape for the others, so those are emitted raw
  (`EncoderFactory.EscapeChar`).
- The buffered stream's read returns 0, not -1, at end of stream when
  nothing was buffered. Skip's check for -1 therefore never fires.

## Model

| member | source | states |
|---|---|---|
| `MockTokenFactory.IsMasterTokenRevoked` | tests/src/main/javascript/tokens/MockTokenFactory.js:85-92 | an undecrypted token is untrusted; otherwise the token is reported revoked exactly when a revoked token with the same identity is recorded |
| `MockTokenFactory.IsUserIdTokenRevoked` | tests/src/main/javascript/tokens/MockTokenFactory.js:192-199 | an undecrypted token is an error; otherwise revoked exactly when it equals (serial number and bound master token) the recorded revoked token |
| `MockTokenFactory.SameUserOtherTokenNotRevoked` | tests/src/main/javascript/tokens/MockTokenFactory.js:197-199 | revocation is per token, not per user: another token of the same user is not revoked |
| `MockTokenFactory.AcceptNonReplayableId` | tests/src/main/javascript/tokens/MockTokenFactory.js:105-138 | untrusted token and out-of-range ID errors leave the counter alone; IDs within the catch-up window below the largest are replays; IDs more than 65536 ahead are unrecoverable; IDs ahead by at most 65536 are accepted and recorded; smaller IDs outside the catch-up window at or above the wrap-around cutoff are unrecoverable; only acceptance writes the counter, and it writes exactly the ID |
| `MockTokenFactory.AcceptedIdsAdvance` | tests/src/main/javascript/tokens/MockTokenFactory.js:113-136 | an accepted ID is in range and either moves the largest forward by at most 65536 or wraps around from the top of the ID space |
| `MockTokenFactory.AcceptedExactly` | tests/src/main/javascript/tokens/MockTokenFactory.js:113-136 | a trusted in-range ID is accepted exactly when it is ahead of the largest by at most 65536, repeats the largest with an empty catch-up window, or lies below both the catch-up window and the wrap-around cutoff |
| `MockTokenFactory.NoSmallerIdAccepted` | tests/src/main/javascript/tokens/MockTokenFactory.js:126-132 | away from the top of the ID space no ID smaller than the largest is ever accepted |
| `MockTokenFactory.WrapAroundAccepted` | tests/src/main/javascript/tokens/MockTokenFactory.js:126-136 | near the top of the ID space a small ID below the wrap cutoff and outside the catch-up window is accepted and recorded |
| `MockTokenFactory.WindowBoundary` | tests/src/main/javascript/tokens/MockTokenFactory.js:121-124 | the look-ahead window is inclusive: exactly 65536 ahead is accepted, 65537 ahead is unrecoverable |
| `MockTokenFactory.CatchupEdgeUnrecoverable` | tests/src/main/javascript/tokens/MockTokenFactory.js:113-132 | the ID one below the catch-up window is unrecoverable, not accepted |
| `MockTokenFactory.AcceptedIdThenReplayed` | tests/src/main/javascript/tokens/MockTokenFactory.js:113-136 | once an ID is accepted, presenting it again is a replay |
| `MockTokenFactory.MinusOneAcceptsOnlyWindow` | tests/src/main/javascript/tokens/MockTokenFactory.js:96-136 | with the largest ID set to -1, an in-range ID is accepted exactly when it is below 65536 |
| `MockTokenFactory.MergeIssuerData` | tests/src/main/javascript/tokens/MockTokenFactory.js:158-166 | the merged issuer data holds the keys of both objects; the new issuer data wins on shared keys, and a key only the old issuer data has keeps its old value |
| `MockTokenFactory.CreateMasterToken` | tests/src/main/javascript/tokens/MockTokenFactory.js:141-151 | a new master token has sequence number 0, the drawn serial number, the entity's identity, the given keys and issuer data, and a renewal window before its expiration |
| `MockTokenFactory.RenewMasterToken` | tests/src/main/javascript/tokens/MockTokenFactory.js:153-184 | an untrusted token is rejected first; renewal keeps serial number and identity; in auto mode the sequence number is the token's successor (MAX wraps to 0) and the factory is unchanged; in forced mode the factory's counter advances and is used |
| `MockTokenFactory.RenewalStaysInRange` | tests/src/main/javascript/tokens/MockTokenFactory.js:169-178 | renewal keeps both the token's sequence number and the counter inside [0, MAX_LONG_VALUE] |
| `MockTokenFactory.ForcedRenewalsConsecutive` | tests/src/main/javascript/tokens/MockTokenFactory.js:171-176 | with a forced counter, successive renewals issue consecutive sequence numbers whatever tokens are renewed |
| `MockTokenFactory.CreateUserIdToken` | tests/src/main/javascript/tokens/MockTokenFactory.js:204-213 | a new user ID token is bound to the master token, carries the user and the drawn serial number, and has no issuer data |
| `MockTokenFactory.RenewUserIdToken` | tests/src/main/javascript/tokens/MockTokenFactory.js:215-227 | an undecrypted token is an error; renewal keeps serial number and user and binds to the given master token |
| `MockTokenFactory.RenewedUserIdTokenKeepsRevocation` | tests/src/main/javascript/tokens/MockTokenFactory.js:192-227 | renewing a token under its own master token does not change whether it counts as revoked |
| `MessageBuilder.IncrementMessageId` | core/src/main/cpp/msg/MessageBuilder.cpp:173-180 | IDs outside [0, MAX_LONG_VALUE] are an internal error; the result stays in range, and MAX wraps to 0 |
| `MessageBuilder.DecrementMessageId` | core/src/main/cpp/msg/MessageBuilder.cpp:182-189 | IDs outside [0, MAX_LONG_VALUE] are an internal error; the result stays in range, and 0 wraps to MAX |
| `MessageBuilder.IncrementDecrementInverse` | core/src/main/cpp/msg/MessageBuilder.cpp:173-189 | incrementing and decrementing undo each other on every legal ID |
| `MessageBuilder.IncrementMatchesSequenceRenewal` | core/src/main/cpp/msg/MessageBuilder.cpp:173-180 | message IDs wrap exactly like master token sequence numbers on renewal |
| `MessageBuilder.ErrorResponseMessageId` | core/src/main/cpp/msg/MessageBuilder.cpp:356-362 | an error response answers a known request ID with its successor and an unknown one (-1) with the random draw; the result is always a legal ID unless the request's ID is not |
| `MessageBuilder.CreateRequest` | core/src/main/cpp/msg/MessageBuilder.cpp:191-204 | fails exactly on an illegal message ID (an internal error) or, failing the store lookup of line 405, on a user ID token not bound to the master token; otherwise it starts with the given tokens, the stored service tokens, no key exchange data, no user authentication data and all flags cleared |
| `MessageBuilder.CreateRequestWellBound` | core/src/main/cpp/msg/MessageBuilder.cpp:395-410 | when the store's tokens fit the master token and user ID token, a new request builder is well bound and its flags consistent |
| `MessageBuilder.SetNonReplayable` | core/src/main/cpp/msg/MessageBuilder.cpp:511-517 | making a message non-replayable clears the handshake flag; the renewable flag is untouched |
| `MessageBuilder.SetRenewable` | core/src/main/cpp/msg/MessageBuilder.cpp:519-525 | making a message non-renewable clears the handshake flag; the non-replayable flag is untouched |
| `MessageBuilder.SetHandshake` | core/src/main/cpp/msg/MessageBuilder.cpp:527-534 | a handshake message becomes renewable and replayable; clearing the flag leaves the others alone |
| `MessageBuilder.FlagOpsKeepConsistent` | core/src/main/cpp/msg/MessageBuilder.cpp:511-534 | after any sequence of flag setter calls, handshake still implies renewable and not non-replayable |
| `MessageBuilder.HeaderNonReplayableId` | core/src/main/cpp/msg/MessageBuilder.cpp:490-497 | without the flag the ID is -1; with it, a master token is required and the store's ID is used |
| `MessageBuilder.HandshakeHeaderIsReplayable` | core/src/main/cpp/msg/MessageBuilder.cpp:490-534 | a handshake message never carries a non-replayable ID |
| `MessageBuilder.AddServiceToken` | core/src/main/cpp/msg/MessageBuilder.cpp:642-669 | a binding mismatch is reported as a master token mismatch first, then as a user ID token mismatch, and changes nothing; otherwise only the token's own name is replaced, and well-boundness is kept |
| `MessageBuilder.AddServiceTokenIfAbsent` | core/src/main/cpp/msg/MessageBuilder.cpp:671-677 | a present name is left alone; an absent one is added with the usual checks |
| `MessageBuilder.ExcludeServiceToken` | core/src/main/cpp/msg/MessageBuilder.cpp:679-683 | only the named token is removed; every other entry is kept as it was, and the rest of the builder is unchanged |
| `MessageBuilder.DeleteServiceToken` | core/src/main/cpp/msg/MessageBuilder.cpp:685-704 | an absent name is a no-op; a present token is replaced by an empty one of the same name, bound by serial number to the builder's master token and user ID token where the original was bound and the builder holds that token; every other service token and the rest of the builder are unchanged; failures become internal errors |
| `MessageBuilder.DeleteSucceedsWhenWellBound` | core/src/main/cpp/msg/MessageBuilder.cpp:685-704 | outside trusted-network key exchange, deleting a token of a well-bound builder always succeeds and keeps the builder well bound |
| `MessageBuilder.SetAuthTokens` | core/src/main/cpp/msg/MessageBuilder.cpp:536-588 | an unbound user ID token, or a trusted-network server with key exchange data, is an internal error; otherwise tokens no longer bound are dropped, stored tokens override by name, and a user ID token clears the user authentication data; the message ID, flags, key exchange master token and peer-to-peer mode are unchanged |
| `MessageBuilder.SetAuthTokensWellBound` | core/src/main/cpp/msg/MessageBuilder.cpp:536-588 | with stored tokens that fit the new tokens, the builder ends up well bound |
| `MessageBuilder.IssueMasterToken` | core/src/main/cpp/msg/MessageBuilder.cpp:101-169 | the nested loops compute the reference run of attempts: pairs of equal scheme in factory order, first success wins, recoverable failures are remembered, others end the run |
| `MessageBuilder.AttemptsAreMatchingPairs` | core/src/main/cpp/msg/MessageBuilder.cpp:110-121 | a (factory, request) pair is attempted exactly when both are present and their schemes agree |
| `MessageBuilder.NoMatchingFactory` | core/src/main/cpp/msg/MessageBuilder.cpp:158-168 | with no factory for any requested scheme, key exchange fails with factory-not-found |
| `MessageBuilder.SuccessIsFirstWorkingAttempt` | core/src/main/cpp/msg/MessageBuilder.cpp:123-147 | a success is some attempt's result and every earlier attempt failed recoverably |
| `MessageBuilder.AllFailLastRethrown` | core/src/main/cpp/msg/MessageBuilder.cpp:151-156 | when every attempt fails recoverably, the last failure is rethrown |
| `EntityAuth.SchemeFromName` | tests/src/test/javascript/entityauth/MasterTokenProtectedAuthenticationDataTest.js:228-238 | a wire name resolves to the scheme that carries it, and only to it |
| `EntityAuth.CreateMasterTokenProtected` | tests/src/test/javascript/entityauth/MasterTokenProtectedAuthenticationDataTest.js:108-122 | the composite reports the encapsulated identity, the protected scheme, the given master token and the encapsulated datum |
| `EntityAuth.MasterTokenProtectedEncoding` | tests/src/test/javascript/entityauth/MasterTokenProtectedAuthenticationDataTest.js:190-201 | the encoding carries the MT_PROTECTED scheme name and the master token's own encoding |
| `EntityAuth.CreateSuffixedData` | tests/src/test/javascript/entityauth/UnauthenticatedSuffixedAuthenticationFactoryTest.js:110-135 | a missing root or suffix is a parse error; success gives suffixed data |
| `EntityAuth.CreateRsaData` | tests/src/test/javascript/entityauth/RsaAuthenticationFactoryTest.js:113-138 | a missing identity or key ID is a parse error; success gives RSA data |
| `EntityAuth.CreateEccData` | tests/src/test/javascript/entityauth/EccAuthenticationFactoryTest.js:110-135 | a missing identity or key ID is a parse error; success gives ECC data |
| `EntityAuth.CreateDataRoundTrip` | tests/src/test/javascript/entityauth/EccAuthenticationFactoryTest.js:70-108 | each single-layer factory's createData rebuilds the datum from its own encoding |
| `EntityAuth.ParseEntityAuthData` | tests/src/test/javascript/entityauth/MasterTokenProtectedAuthenticationDataTest.js:228-243 | missing fields are parse errors; an unknown scheme name is the unidentified-scheme error, a known scheme without a registered factory is the factory-not-found error, and a registered scheme hands the authentication data to its factory; a parsed datum's scheme has a registered factory and is the one named in the encoding |
| `EntityAuth.CreateData` | tests/src/test/javascript/entityauth/MasterTokenProtectedAuthenticationDataTest.js:228-243 | the registry hands the data to the factory of the named scheme, whose datum carries that scheme |
| `EntityAuth.ParseMasterTokenProtected` | tests/src/test/javascript/entityauth/MasterTokenProtectedAuthenticationDataTest.js:257-537 | a missing or mistyped master token, authdata or signature is a parse error; with a parsed master token, a signature that does not verify is ENTITYAUTH_SIGNATURE_INVALID, checked before decryption, and ciphertext that does not decrypt is ENTITYAUTH_CIPHERTEXT_INVALID; a parsed composite carries the master token its field decodes to, whose keys verified the signature and decrypted the ciphertext |
| `EntityAuth.InvalidMasterTokenRejected` | tests/src/test/javascript/entityauth/MasterTokenProtectedAuthenticationDataTest.js:327-360 | an object in the master token field that is not a token is an invalid master token, not a parse error |
| `EntityAuth.ParseEncodeRoundTrip` | tests/src/test/javascript/entityauth/MasterTokenProtectedAuthenticationDataTest.js:144-155 | with a sound encoder and crypto context, parsing the encoding of any registered datum, nested composites included, gives it back |
| `EntityAuth.ProtectedLayerRoundTrip` | tests/src/test/javascript/entityauth/MasterTokenProtectedAuthenticationDataTest.js:144-155 | one protected layer verifies, decrypts and decodes back to its master token and encapsulated datum, and with the master-token-protected factory registered the whole encoding parses back to the composite |
| `EntityAuth.DispatchEncoded` | tests/src/test/javascript/entityauth/MasterTokenProtectedAuthenticationDataTest.js:228-243 | the registry hands an encoded datum's authentication data to its own scheme's factory |
| `EntityAuth.EqualReflexiveSymmetric` | tests/src/test/javascript/entityauth/MasterTokenProtectedAuthenticationDataTest.js:576-660 | entity authentication data equality is reflexive and symmetric |
| `EntityAuth.CompositeInequality` | tests/src/test/javascript/entityauth/MasterTokenProtectedAuthenticationDataTest.js:576-660 | composites differ when their master tokens differ or their encapsulated data differ |
| `EntityAuth.EqualsValue` | tests/src/test/javascript/entityauth/MasterTokenProtectedAuthenticationDataTest.js:662-676 | a datum never equals null or a value that is not entity authentication data |
| `EntityAuth.ReparsedEqual` | tests/src/test/javascript/entityauth/MasterTokenProtectedAuthenticationDataTest.js:623-660 | a datum equals its re-parsed encoding even though the ciphertext is regenerated |
| `EntityAuth.EccFactoryWithoutKeyPair` | core/src/main/cpp/entityauth/EccAuthenticationFactory.cpp:41-44 | the factory built without a key pair ID uses the empty string as its local ID |
| `EntityAuth.GetAsymmetricCryptoContext` | core/src/main/cpp/entityauth/EccAuthenticationFactory.cpp:59-95 | data of another scheme is an internal error; a revoked identity is ENTITY_REVOKED, checked first, and an unrevoked identity not permitted the scheme is INCORRECT_ENTITYAUTH_DATA; success means the entity is unrevoked and permitted, the context is bound to its identity and the keys stored under its key ID, and a local entity can sign |
| `EntityAuth.KeyResolution` | core/src/main/cpp/entityauth/EccAuthenticationFactory.cpp:81-94 | for a permitted entity, the local key ID needs a private key and any other needs a public key, and nothing else decides success |
| `EntityAuth.EmptyKeyIdIsLocal` | core/src/main/cpp/entityauth/EccAuthenticationFactory.cpp:41-44 | without a key pair ID of its own, the factory treats the empty key ID as local and asks for a private key |
| `EntityAuth.GetUnauthenticatedCryptoContext` | tests/src/test/javascript/entityauth/UnauthenticatedSuffixedAuthenticationFactoryTest.js:137-141 | the unauthenticated factories give a null crypto context for their own data, which cannot sign |
| `KeyExchange.SchemeFromName` | tests/src/test/javascript/keyx/KeyRequestDataTest.js:102-119 | a key exchange wire name resolves to the scheme that carries it, and only to it |
| `KeyExchange.ResolveScheme` | tests/src/test/javascript/keyx/KeyRequestDataTest.js:102-148 | an unknown name is an unidentified scheme, a known one without a factory is factory-not-found, and success is the named registered scheme |
| `KeyExchange.ParseKeyRequestData` | tests/src/test/javascript/keyx/KeyRequestDataTest.js:64-148 | missing scheme or keydata is a parse error; then an unknown scheme and a missing factory are reported |
| `KeyExchange.KeyRequestRoundTrip` | tests/src/test/javascript/keyx/KeyRequestDataTest.js:64-148 | key request data with a registered scheme parses back from its encoding |
| `KeyExchange.ParseKeyResponseData` | tests/src/test/javascript/keyx/KeyResponseDataTest.js:89-231 | missing fields are parse errors; a master token field that is not a token is a parse error; then an unknown scheme and a missing factory are reported |
| `KeyExchange.KeyResponseRoundTrip` | tests/src/test/javascript/keyx/KeyResponseDataTest.js:89-231 | key response data with a trusted master token and a registered scheme parses back from its encoding |
| `KeyExchange.EmptyMasterTokenRejected` | tests/src/test/javascript/keyx/KeyResponseDataTest.js:149-180 | an empty object as the master token is a parse error |
| `UserAuth.CreateData` | tests/src/test/javascript/userauth/EmailPasswordAuthenticationFactoryTest.js:80-147 | a missing email or password is a parse error; success takes both from the encoding |
| `UserAuth.CreateDataRoundTrip` | tests/src/test/javascript/userauth/EmailPasswordAuthenticationFactoryTest.js:80-120 | email/password data parses back from its encoding |
| `UserAuth.IsUser` | tests/src/test/javascript/userauth/EmailPasswordAuthenticationFactoryTest.js:149-153 | credentials identify a user exactly when the email is registered with that password |
| `UserAuth.Authenticate` | tests/src/test/javascript/userauth/EmailPasswordAuthenticationFactoryTest.js:149-233 | blank email or password fails first, then credentials the store does not know are incorrect, then a user ID token of another user is a mismatch; success means the registered user matches the credentials and agrees with the user ID token |
| `UserAuth.AuthenticateRegistered` | tests/src/test/javascript/userauth/EmailPasswordAuthenticationFactoryTest.js:149-233 | a registered user authenticates with or without an own user ID token; another user's token is a mismatch and a wrong password is incorrect |
| `MslUtils.AndLowMask` | core/src/main/cpp/util/MslUtils.cpp:286-287 | masking with 2^k - 1 keeps exactly the value modulo 2^k |
| `MslUtils.IsPowerOf2Correct` | core/src/main/cpp/util/MslUtils.cpp:155-162 | the test holds exactly of zero and the positive powers of two |
| `MslUtils.MaskedInRange` | core/src/main/cpp/util/MslUtils.cpp:272-292 | when MAX_LONG_VALUE is a power of two, every masked draw, negative ones included, lies in [0, MAX_LONG_VALUE) |
| `MslUtils.GetRandomLong` | core/src/main/cpp/util/MslUtils.cpp:272-292 | the result is in [0, MAX_LONG_VALUE], is the first draw that lands there, and with a power-of-two maximum uses exactly one draw |
| `MslUtils.InsStringCompare` | core/src/main/cpp/util/MslUtils.cpp:266-270 | the comparison holds exactly when the lengths agree and the characters agree up to case |
| `MslUtils.EqualIgnoringCaseIsLowerCaseEquality` | core/src/main/cpp/util/MslUtils.cpp:145-147 | comparing up to case is comparing the lower-cased strings |
| `MslUtils.EqualIgnoringCaseEquivalence` | core/src/main/cpp/util/MslUtils.cpp:266-270 | case-insensitive equality is reflexive, symmetric and transitive |
| `MslUtils.Compress` | core/src/main/cpp/util/MslUtils.cpp:172-187 | only GZIP compresses; any other algorithm is a compression error |
| `MslUtils.Uncompress` | core/src/main/cpp/util/MslUtils.cpp:189-204 | only GZIP uncompresses; any other algorithm is an uncompression error |
| `MslUtils.CompressionRoundTrip` | tests/src/test/cpp/util/MslUtilsTest.cpp:46-83 | GZIP data uncompresses to what was compressed; other algorithms fail both ways |
| `EncoderFactory.EscapeChar` | core/src/main/cpp/io/MslEncoderFactory.cpp:51-86 | each escape is one character or a reverse solidus and one character |
| `EncoderFactory.EscapeSnoc` | core/src/main/cpp/io/MslEncoderFactory.cpp:46-50 | escaping is done one character at a time, looking back at the previous input character |
| `EncoderFactory.QuoteString` | core/src/main/cpp/io/MslEncoderFactory.cpp:35-90 | the loop builds the quoted form: the escaped string between double quotes |
| `EncoderFactory.EscapeRoundTrip` | core/src/main/cpp/io/MslEncoderFactory.cpp:51-86 | no information is lost: every string reads back from its escaped form |
| `EncoderFactory.QuoteRoundTrip` | core/src/main/cpp/io/MslEncoderFactory.cpp:35-90 | a quoted string is framed by double quotes, is at least two longer than the input, and unquotes to it |
| `EncoderFactory.EscapeLeavesNoNamedControl` | core/src/main/cpp/io/MslEncoderFactory.cpp:63-77 | none of backspace, tab, newline, form feed or carriage return appears raw in the output |
| `EncoderFactory.EscapeNeverClosesScript` | core/src/main/cpp/io/MslEncoderFactory.cpp:57-62 | the output never contains "</" |
| `EncoderFactory.EscapeLength` | core/src/main/cpp/io/MslEncoderFactory.cpp:51-86 | the escaped form is between one and two times as long as the input |
| `EncoderFactory.ParseFormat` | core/src/main/cpp/io/MslEncoderFactory.cpp:104-120 | an empty encoding or an unregistered first byte is an encoder error; otherwise the format registered for the first byte |
| `EncoderFactory.FormatRecognisedIffRegistered` | core/src/main/cpp/io/MslEncoderFactory.cpp:110-118 | an identifier byte is recognised exactly when a format is registered for it; the encoding then parses to that format whatever follows, and an unregistered identifier is an encoder error |
| `BufferedStream.Mark` | core/src/main/cpp/io/BufferedInputStream.cpp:28-51 | after a mark the buffer holds exactly the bytes not yet re-read, the replay position is at its start, and the read limit is the new one |
| `BufferedStream.Reset` | core/src/main/cpp/io/BufferedInputStream.cpp:53-60 | without a mark reset is an I/O error; otherwise the whole buffer becomes pending again |
| `BufferedStream.Step` | core/src/main/cpp/io/BufferedInputStream.cpp:62-114 | a closed stream fails; otherwise no more than the requested bytes are taken, nothing is lost or duplicated, and bytes read while marked are appended to the buffer |
| `BufferedStream.ReadAsWrittenOverwritesBufferedBytes` | core/src/main/cpp/io/BufferedInputStream.cpp:116-119 | with two bytes buffered and one more from the source, the source byte lands on top of the first buffered byte and the third slot is left unwritten |
| `BufferedStream.ReadAsWritten` | core/src/main/cpp/io/BufferedInputStream.cpp:62-120 | the read as the source writes it: an I/O error exactly when the stream is closed; otherwise the count is at most the requested length and the caller's array keeps its length |
| `BufferedStream.Read` | core/src/main/cpp/io/BufferedInputStream.cpp:62-120 | the caller receives exactly the next bytes of the stream at the offset, the rest of its array is untouched, and the stream continues after them |
| `BufferedStream.EndOfStreamReadsZero` | core/src/main/cpp/io/BufferedInputStream.cpp:88-96 | at end of stream with nothing buffered, both forms of read return a count of 0, not the -1 of core/src/main/cpp/io/InputStream.h, and change neither the array nor the stream |
| `BufferedStream.MarkReadResetReplays` | core/src/main/cpp/io/BufferedInputStream.cpp:28-120 | after a mark, a read that stays within the read limit followed by a reset shows the stream again as it was at the mark |
| `BufferedStream.Skip` | core/src/main/cpp/io/BufferedInputStream.cpp:122-143 | a closed stream fails; otherwise at most the requested count is skipped, and the stream continues exactly that many bytes later |
| `Dates.EqualIsEquivalence` | tests/src/test/cpp/DateTest.cpp:111-153 | date equality is an equivalence in which all null dates are equal and no null date equals a non-null one |
| `Dates.CompareTo` | tests/src/test/cpp/DateTest.cpp:90-95 | compareTo is -1, 0 or 1, zero exactly for equal dates and negative exactly for an earlier date |
| `Dates.ComparisonConsistent` | tests/src/test/cpp/DateTest.cpp:63-96 | the comparison operators agree: antisymmetry, before and after as mirror images, trichotomy and transitivity |
| `Dates.NullDate` | tests/src/test/cpp/DateTest.cpp:119-121 | the null date is null and reads time -1 |
| `Dates.ToString` | tests/src/test/cpp/DateTest.cpp:98-109 | a null date prints as "null" |
| `PresharedKeyStore.AddKeys` | tests/src/main/javascript/entityauth/MockPresharedKeyStore.js:44-47 | the identity's key set is replaced and every other identity's is untouched |
| `PresharedKeyStore.Clear` | tests/src/main/javascript/entityauth/MockPresharedKeyStore.js:52-54 | after a clear no identity has keys |
| `PresharedKeyStore.GetKeys` | tests/src/main/javascript/entityauth/MockPresharedKeyStore.js:57-59 | a lookup finds a key set exactly when one was added for the identity |
| `PresharedKeyStore.StoreBehaviour` | tests/src/main/javascript/entityauth/MockPresharedKeyStore.js:44-59 | a lookup sees the latest key set added for the identity, ignores other identities' additions, finds nothing after a clear, and adding twice is adding once |

## Left out

- Asynchronous callbacks, timeouts and the `ctx` argument: every operation is synchronous and takes what it reads as parameters.
- Random numbers and the clock: serial numbers, random message IDs and `now` are parameters. `GetRandomLong` works over a finite list of draws and reports running out, whereas the source loops until a draw fits.
- The encoder (bytes to objects) and the session crypto context are abstract parameters, so the model says nothing about JSON parsing or cipher internals.
- The master token's real wire form and its signature check: that class is not part of this model. A stand-in encoding (`Tokens.EncodeMasterToken`) is used.
- Entity authentication schemes other than NONE, NONE_SUFFIXED, RSA, ECC and MT_PROTECTED (PSK, X509, PSK_PROFILE, PROVISIONED): their factories are not part of this model.
- The RSA factory's source is not part of this model. Its key resolution is modelled on the ECC factory's, with RSA error codes, as the RSA tests describe.
- Per-scheme key exchange data (`keydata`) stays an opaque object. The key exchange factories' `generateResponse` is a parameter of `MessageBuilder.IssueMasterToken`.
- EntityAuth.ParseEntityAuthData: the `fuel` parameter bounds how many protected layers are unwrapped, and running out is an internal error. The source recurses without a bound.
- A failure to merge issuer data during master token renewal (an encoder exception) is not modelled. The merge is total here.
- The token constructors' own field validation (renewal window before expiration, serial numbers in range) belongs to token classes that are not part of this model.
- `createResponse`, `createUser`, `MslUtils::rethrow`, `createTokenizer` and the builder's capability and format negotiation are not modelled. Only the message ID rule of responses is covered, by `MessageBuilder.IncrementMessageId`.
- The peer-to-peer service token variants (`setPeerAuthTokens`, `addPeerServiceToken` and the rest) are not modelled. They mirror the primary operations on the peer token map.
- Builder setters that only store a value (`setUser`, user authentication data, the recipient, the message capabilities) are not modelled.
- The user ID token in `MessageBuilder.SetAuthTokens` and the binding checks compare serial numbers only, as the token classes' `isBoundTo` does.
- UserAuth.Authenticate: takes neither the entity identity nor the authentication utilities, so the factory's check that the utilities permit the user this scheme is not modelled. The factory's source is not part of this model, and the tests reset the utilities so that every user is permitted. The model's failures are therefore only blank, incorrect and mismatch.
- PresharedKeyStore.GetKeys: identities are keys of an ordinary map with no inherited properties. The store is a plain JavaScript object, so a lookup of a name such as "constructor" finds an inherited property, and adding keys under "__proto__" creates no entry of its own; the model does neither.
- MessageBuilder.CreateRequest: the MSL store is a parameter. Its answer for the builder's tokens is `stored`, already keyed by name. When the store holds several tokens with the same name, the source's constructor keeps the first in set order (an `insert`, MessageBuilder.cpp:410), while setAuthTokens keeps the last (an `erase` then `insert`, MessageBuilder.cpp:579-580). The model does not distinguish these. The store's own source is not part of this model, so the error code of its binding exception is taken to be the one the builder itself uses for the same condition (MessageBuilder.cpp:726).
- MessageBuilder.IssueMasterToken: the factories and the key requests are sequences in the iteration order of the source's sets. Those sets are ordered by object address, which the model does not fix, so any order is allowed. Two equal entries stand for two distinct objects with equal contents, which such a set can hold.
- zlib itself: GZIP compression is a parameter. A zlib failure (a `runtime_error`) is not modelled.
- Dates.CompareTo: defined only for non-null dates. How the date class orders a null date is not part of this model.
- Date formatting in `toString` is a parameter; only the "null" case is fixed.
- The buffered stream's `close` is not modelled; the closed flag is part of the state.

## Findings

| source | as written | input that shows it | evidently intended | confidence | as-written member | corrected member |
|---|---|---|---|---|---|---|
| core/src/main/cpp/io/BufferedInputStream.cpp:117-118 | after copying the buffered bytes to `offset`, the source bytes are also copied to `offset`, overwriting them | a mark buffer holding [1, 2] at position 0, a source holding [3], and a read of 3 bytes at offset 0: the caller gets [3, 2, 0] and a count of 3 | the source bytes go to `offset + bufferedData.size()`, giving [1, 2, 3] | high; not executed | `BufferedStream.ReadAsWritten`, `BufferedStream.ReadAsWrittenOverwritesBufferedBytes` | `BufferedStream.Read` |

=== FILE: buffered_input_stream.dfy ===
/*******************************************************************************
 *  The mark/reset buffer of BufferedInputStream over a backing source that
 *  delivers its bytes in chunks. Bytes read after a mark are kept (up to the
 *  read limit) so that a reset can replay them.
 *******************************************************************************/

module BufferedStream {
  import opened MslBase

  function Min(a: int, b: int): int { if a <= b then a else b }

  /**
   * The stream's own state: the mark buffer (absent when no mark is set or
   * the mark was invalidated), the replay position in it, the read limit and
   * whether the stream is closed.
   */
  datatype Stream = Stream(buffer: Option<seq<byte>>, bufpos: nat, readlimit: nat, closed: bool)

  /** The replay position lies inside the buffer, and is zero when there is none. */
  predicate Valid(st: Stream) {
    && (st.buffer.Some? ==> st.bufpos <= |st.buffer.value|)
    && (st.buffer.None? ==> st.bufpos == 0)
  }

  /** The buffered bytes not yet handed out since the last reset. */
  function Pending(st: Stream): seq<byte>
    requires Valid(st)
  {
    if st.buffer.Some? then st.buffer.value[st.bufpos..] else []
  }

  /** The bytes the backing source still holds, chunk after chunk. */
  function Flatten(src: seq<seq<byte>>): seq<byte>
    decreases |src|
  {
    if |src| == 0 then [] else src[0] + Flatten(src[1..])
  }

  /** Everything a reader of the stream will still see, in order. */
  function Contents(st: Stream, src: seq<seq<byte>>): seq<byte>
    requires Valid(st)
  {
    Pending(st) + Flatten(src)
  }

  lemma FlattenCons(c: seq<byte>, t: seq<seq<byte>>)
    ensures Flatten([c] + t) == c + Flatten(t)
  {
    assert ([c] + t)[1..] == t;
  }

  /** One read of the backing source: end of stream, or some bytes and what is left. */
  datatype SourceRead = EndOfStream | Chunk(data: seq<byte>, rest: seq<seq<byte>>)

  /** The backing source delivers at most `n` bytes of its next chunk. */
  function ReadSource(src: seq<seq<byte>>, n: nat): (r: SourceRead)
    ensures r.EndOfStream? <==> |src| == 0
    ensures r.Chunk? ==> |r.data| <= n && Flatten(src) == r.data + Flatten(r.rest)
  {
    if |src| == 0 then EndOfStream
    else
      var k := Min(n, |src[0]|);
      var rest := if k == |src[0]| then src[1..] else [src[0][k..]] + src[1..];
      FlattenCons(src[0][k..], src[1..]);
      assert src[0] == src[0][..k] + src[0][k..];
      Chunk(src[0][..k], rest)
  }

  /**
   * mark: start buffering if there is no buffer; otherwise drop the bytes
   * before the replay position. The read limit is replaced either way.
   */
  function Mark(st: Stream, readlimit: nat): (r: Stream)
    requires Valid(st)
    ensures Valid(r) && r.buffer.Some? && r.bufpos == 0 && r.readlimit == readlimit
    ensures r.buffer.value == Pending(st)
    ensures r.closed == st.closed
  {
    if st.buffer.None? then Stream(Some([]), 0, readlimit, st.closed)
    else if st.bufpos > 0 then Stream(Some(st.buffer.value[st.bufpos..]), 0, readlimit, st.closed)
    else st.(readlimit := readlimit)
  }

  /** reset: replay from the start of the buffer; without a mark it is an I/O error. */
  function Reset(st: Stream): (r: Result<Stream>)
    requires Valid(st)
    ensures st.buffer.None? <==> r == Err(IoError)
    ensures r.Ok? ==> Valid(r.value) && Pending(r.value) == st.buffer.value
    ensures r.Ok? ==> r.value == st.(bufpos := 0)
  {
    if st.buffer.None? then Err(IoError) else Ok(st.(bufpos := 0))
  }

  /** What one read takes from the buffer and from the source, and the state after it. */
  datatype ReadStep = ReadStep(buffered: seq<byte>, data: seq<byte>, state: Stream, src: seq<seq<byte>>)

  /** The buffered bytes a request for `len` bytes is served first, and the state after serving them. */
  function TakeBuffered(st: Stream, len: nat): (r: (seq<byte>, Stream))
    requires Valid(st)
    ensures Valid(r.1) && r.1.buffer == st.buffer && r.1.readlimit == st.readlimit && r.1.closed == st.closed
    ensures |r.0| <= len && Pending(st) == r.0 + Pending(r.1)
    ensures |r.0| < len ==> Pending(r.1) == []
    ensures st.buffer.Some? ==> r.1.buffer.value[..r.1.bufpos] == st.buffer.value[..st.bufpos] + r.0
  {
    if st.buffer.Some? && |st.buffer.value| > st.bufpos then
      var buffered := st.buffer.value[st.bufpos..Min(|st.buffer.value|, st.bufpos + len)];
      var st1 := st.(bufpos := st.bufpos + |buffered|);
      assert st.buffer.value[st.bufpos..] == buffered + st1.buffer.value[st1.bufpos..];
      assert st1.buffer.value[..st1.bufpos] == st.buffer.value[..st.bufpos] + buffered;
      (buffered, st1)
    else ([], st)
  }

  /**
   * Keeps bytes read from the source while a mark is set: they are appended
   * to the buffer, or the mark is dropped when the read limit would be
   * exceeded.
   */
  function Record(st: Stream, data: seq<byte>): (r: Stream)
    requires Valid(st) && Pending(st) == []
    ensures Valid(r) && Pending(r) == [] && r.closed == st.closed
    ensures st.buffer.None? ==> r.buffer.None?
    ensures st.buffer.Some? && r.buffer.Some? ==> r.buffer.value[..r.bufpos] == st.buffer.value[..st.bufpos] + data
  {
    if st.buffer.None? then st
    else if |st.buffer.value| + |data| > st.readlimit then st.(buffer := None, bufpos := 0, readlimit := 0)
    else
      var r := st.(buffer := Some(st.buffer.value + data), bufpos := st.bufpos + |data|);
      assert st.bufpos == |st.buffer.value|;
      assert r.buffer.value[..r.bufpos] == r.buffer.value;
      r
  }

  /**
   * The bookkeeping of read, apart from where the bytes are written: serve
   * from the buffer first; if that is not enough, read the rest from the
   * source and record it while a mark is set.
   */
  function Step(st: Stream, src: seq<seq<byte>>, len: nat): (r: Result<ReadStep>)
    requires Valid(st)
    ensures st.closed <==> r == Err(IoError)
    ensures r.Ok? ==> Valid(r.value.state) && r.value.state.closed == st.closed
    ensures r.Ok? ==> |r.value.buffered| + |r.value.data| <= len
    ensures r.Ok? ==>
      Contents(st, src) == r.value.buffered + r.value.data + Contents(r.value.state, r.value.src)
    ensures r.Ok? && st.buffer.Some? && r.value.state.buffer.Some? ==>
      r.value.state.buffer.value[..r.value.state.bufpos] == st.buffer.value[..st.bufpos] + r.value.buffered + r.value.data
    ensures r.Ok? && st.buffer.None? ==> r.value.state.buffer.None?
  {
    if st.closed then Err(IoError)
    else
      var (buffered, st1) := TakeBuffered(st, len);
      if |Pending(st)| > 0 && |buffered| >= len then
        Ok(ReadStep(buffered, [], st1, src))
      else
        assert Pending(st1) == [];
        match ReadSource(src, len - |buffered|)
        case EndOfStream => Ok(ReadStep(buffered, [], st1, src))
        case Chunk(data, rest) =>
          var st2 := Record(st1, data);
          assert Contents(st, src) == buffered + data + Contents(st2, rest);
          Ok(ReadStep(buffered, data, st2, rest))
  }

  /** `out` with `bytes` copied in at `offset`. */
  function Place(out: seq<byte>, offset: nat, bytes: seq<byte>): (r: seq<byte>)
    requires offset + |bytes| <= |out|
    ensures |r| == |out| && r[offset..offset + |bytes|] == bytes
    ensures r[..offset] == out[..offset] && r[offset + |bytes|..] == out[offset + |bytes|..]
  {
    out[..offset] + bytes + out[offset + |bytes|..]
  }

  /** The result of a read: the count returned, the caller's array and the states after it. */
  datatype ReadOutcome = ReadOutcome(count: nat, out: seq<byte>, state: Stream, src: seq<seq<byte>>)

  /**
   * read as written: the buffered bytes are copied to `offset` and then the
   * source bytes are copied to `offset` as well, on top of them.
   */
  function ReadAsWritten(st: Stream, src: seq<seq<byte>>, out: seq<byte>, offset: nat, len: nat): (r: Result<ReadOutcome>)
    requires Valid(st) && offset + len <= |out|
    ensures st.closed <==> r == Err(IoError)
    ensures r.Ok? ==> r.value.count <= len && |r.value.out| == |out|
  {
    var s :- Step(st, src, len);
    Ok(ReadOutcome(|s.buffered| + |s.data|, Place(Place(out, offset, s.buffered), offset, s.data), s.state, s.src))
  }

  /**
   * read, with the source bytes placed after the buffered ones: the caller
   * receives exactly the next `count` bytes of the stream at `offset`, and the
   * rest of its array is untouched.
   */
  function Read(st: Stream, src: seq<seq<byte>>, out: seq<byte>, offset: nat, len: nat): (r: Result<ReadOutcome>)
    requires Valid(st) && offset + len <= |out|
    ensures st.closed <==> r == Err(IoError)
    ensures r.Ok? ==> Valid(r.value.state) && r.value.count <= len && |r.value.out| == |out|
    ensures r.Ok? ==>
      (Contents(st, src) == r.value.out[offset..offset + r.value.count] + Contents(r.value.state, r.value.src))
    ensures r.Ok? ==> r.value.out[..offset] == out[..offset] &&
                      r.value.out[offset + r.value.count..] == out[offset + r.value.count..]
  {
    var s :- Step(st, src, len);
    Ok(ReadOutcome(|s.buffered| + |s.data|, Place(out, offset, s.buffered + s.data), s.state, s.src))
  }

  /**
   * At end of stream with nothing buffered, read returns 0 rather than the -1
   * the input stream interface documents, and leaves the caller's array and
   * the stream as they were; both forms of read agree here.
   */
  lemma EndOfStreamReadsZero(st: Stream, out: seq<byte>, offset: nat, len: nat)
    requires Valid(st) && offset + len <= |out| && !st.closed && Pending(st) == []
    ensures Read(st, [], out, offset, len) == Ok(ReadOutcome(0, out, st, []))
    ensures ReadAsWritten(st, [], out, offset, len) == Ok(ReadOutcome(0, out, st, []))
  {
    assert TakeBuffered(st, len) == ([], st);
    assert ReadSource([], len) == EndOfStream;
    assert Step(st, [], len) == Ok(ReadStep([], [], st, []));
    assert Place(out, offset, []) == out;
  }

  /** The read the source performs on a two-byte buffer, one one-byte chunk and a three-byte request. */
  lemma ReadAsWrittenOverwritesBufferedBytes()
    ensures var st := Stream(Some([1, 2]), 0, 10, false);
      && Read(st, [[3]], [0, 0, 0], 0, 3).Ok?
      && Read(st, [[3]], [0, 0, 0], 0, 3).value.out == [1, 2, 3]
      && ReadAsWritten(st, [[3]], [0, 0, 0], 0, 3).Ok?
      && ReadAsWritten(st, [[3]], [0, 0, 0], 0, 3).value.out == [3, 2, 0]
      && ReadAsWritten(st, [[3]], [0, 0, 0], 0, 3).value.count == 3
  {
    var st := Stream(Some([1, 2]), 0, 10, false);
    var st1 := st.(bufpos := 2);
    assert st.buffer.value[0..2] == [1, 2];
    assert TakeBuffered(st, 3) == ([1, 2], st1);
    assert [[3]][0][..1] == [3];
    assert ReadSource([[3]], 1) == Chunk([3], []);
    var s := ReadStep([1, 2], [3], Record(st1, [3]), []);
    assert Step(st, [[3]], 3) == Ok(s);
    assert Place([0, 0, 0], 0, [1, 2, 3]) == [1, 2, 3];
    assert Place([0, 0, 0], 0, [1, 2]) == [1, 2, 0];
    assert Place([1, 2, 0], 0, [3]) == [3, 2, 0];
  }

  /**
   * After a mark, reads that stay within the read limit keep everything they
   * hand out in the buffer, so a reset makes the stream show again the bytes
   * it showed at the mark.
   */
  lemma MarkReadResetReplays(st: Stream, src: seq<seq<byte>>, limit: nat, out: seq<byte>, offset: nat, len: nat)
    requires Valid(st) && offset + len <= |out|
    requires Read(Mark(st, limit), src, out, offset, len).Ok?
    requires Read(Mark(st, limit), src, out, offset, len).value.state.buffer.Some?
    ensures var o := Read(Mark(st, limit), src, out, offset, len).value;
      Contents(Reset(o.state).value, o.src) == Contents(st, src)
  {
    var m := Mark(st, limit);
    var s := Step(m, src, len).value;
    assert Read(m, src, out, offset, len).value.state == s.state;
    assert Read(m, src, out, offset, len).value.src == s.src;
    MarkStepResetReplays(st, src, limit, len);
  }

  /** The bookkeeping half of MarkReadResetReplays: one step after a mark, then a reset. */
  lemma MarkStepResetReplays(st: Stream, src: seq<seq<byte>>, limit: nat, len: nat)
    requires Valid(st)
    requires Step(Mark(st, limit), src, len).Ok?
    requires Step(Mark(st, limit), src, len).value.state.buffer.Some?
    ensures var s := Step(Mark(st, limit), src, len).value;
      Contents(Reset(s.state).value, s.src) == Contents(st, src)
  {
    var m := Mark(st, limit);
    ResetAfterStep(m, src, Step(m, src, len).value);
  }

  /** A reset after a step that kept every byte it handed out shows the stream as before the step. */
  lemma ResetAfterStep(m: Stream, src: seq<seq<byte>>, s: ReadStep)
    requires Valid(m) && m.buffer.Some? && m.bufpos == 0
    requires Valid(s.state) && s.state.buffer.Some?
    requires s.state.buffer.value[..s.state.bufpos] == m.buffer.value[..m.bufpos] + s.buffered + s.data
    requires Contents(m, src) == s.buffered + s.data + Contents(s.state, s.src)
    ensures Contents(Reset(s.state).value, s.src) == Contents(m, src)
  {
    var b, read := s.state.buffer.value, s.buffered + s.data;
    var pending, rest := Pending(s.state), Flatten(s.src);
    assert m.buffer.value[..m.bufpos] == [];
    assert b[..s.state.bufpos] == read;
    assert b == read + pending;
    assert Contents(Reset(s.state).value, s.src) == b + rest;
    assert Contents(m, src) == read + (pending + rest);
  }

  /** The outcome of skip: the number of bytes skipped and the states after it. */
  datatype SkipOutcome = SkipOutcome(count: nat, state: Stream, src: seq<seq<byte>>)

  /**
   * skip: skip buffered bytes first, then read (and discard) the remainder.
   * The discarded array is never looked at, so the misplaced copy of read
   * does not affect it.
   */
  function Skip(st: Stream, src: seq<seq<byte>>, n: nat): (r: Result<SkipOutcome>)
    requires Valid(st)
    ensures st.closed <==> r == Err(IoError)
    ensures r.Ok? ==> Valid(r.value.state) && r.value.count <= n
    ensures r.Ok? ==> r.value.count <= |Contents(st, src)| &&
                      Contents(r.value.state, r.value.src) == Contents(st, src)[r.value.count..]
  {
    if st.closed then Err(IoError)
    else
      var t := TakeBuffered(st, n);
      var skipped, st1 := t.0, t.1;
      ContentsAfterBuffered(st, st1, skipped, src);
      if |Pending(st)| > 0 && |skipped| == n then
        DropFront(Contents(st, src), skipped, Contents(st1, src), [], Contents(st1, src));
        Ok(SkipOutcome(n, st1, src))
      else
        match Step(st1, src, n - |skipped|)
        case Err(e) => Err(e)
        case Ok(s) =>
          var count := |skipped| + (|s.buffered| + |s.data|);
          DropFront(Contents(st, src), skipped, Contents(st1, src), s.buffered + s.data, Contents(s.state, s.src));
          assert count <= n;
          Ok(SkipOutcome(count, s.state, s.src))
  }

  /** Serving buffered bytes takes them off the front of what the stream shows. */
  lemma ContentsAfterBuffered(st: Stream, st1: Stream, served: seq<byte>, src: seq<seq<byte>>)
    requires Valid(st) && Valid(st1) && Pending(st) == served + Pending(st1)
    ensures Contents(st, src) == served + Contents(st1, src)
  {
  }

  /** Dropping `a` and then `b` off the front of `whole` leaves `rest`. */
  lemma DropFront(whole: seq<byte>, a: seq<byte>, mid: seq<byte>, b: seq<byte>, rest: seq<byte>)
    requires whole == a + mid && mid == b + rest
    ensures |a| + |b| <= |whole| && whole[|a| + |b|..] == rest
  {
    assert whole == (a + b) + rest;
  }
}

=== FILE: date.dfy ===
/*******************************************************************************
 *  Dates: milliseconds since the epoch with a null flag. All null dates are
 *  equal whatever time they carry; a null date never equals a non-null one.
 *******************************************************************************/

module Dates {

  datatype Date = Date(time: int, isNull: bool)

  /** Date::null(), whose time reads -1. */
  function NullDate(): (d: Date)
    ensures d.isNull && d.time == -1
  {
    Date(-1, true)
  }

  /** A non-null date at `time`. */
  function At(time: int): (d: Date)
    ensures !d.isNull && d.time == time
  {
    Date(time, false)
  }

  /** operator==: both null, or both non-null with the same time. */
  predicate Equal(a: Date, b: Date) {
    if a.isNull || b.isNull then a.isNull && b.isNull else a.time == b.time
  }

  /** operator!= is the negation of operator==. */
  predicate NotEqual(a: Date, b: Date) {
    !Equal(a, b)
  }

  /** Date equality is an equivalence that ignores the time of null dates. */
  lemma EqualIsEquivalence(a: Date, b: Date, c: Date)
    ensures Equal(a, a)
    ensures Equal(a, b) ==> Equal(b, a)
    ensures Equal(a, b) && Equal(b, c) ==> Equal(a, c)
    ensures a.isNull && b.isNull ==> Equal(a, b)
    ensures a.isNull != b.isNull ==> NotEqual(a, b)
  {
  }

  /** compareTo on non-null dates: the sign of the time difference. */
  function CompareTo(a: Date, b: Date): (r: int)
    requires !a.isNull && !b.isNull
    ensures r in {-1, 0, 1}
    ensures r == 0 <==> Equal(a, b)
    ensures r < 0 <==> a.time < b.time
  {
    if a.time < b.time then -1 else if a.time == b.time then 0 else 1
  }

  predicate Before(a: Date, b: Date) requires !a.isNull && !b.isNull { CompareTo(a, b) < 0 }
  predicate After(a: Date, b: Date) requires !a.isNull && !b.isNull { CompareTo(a, b) > 0 }
  predicate AtMost(a: Date, b: Date) requires !a.isNull && !b.isNull { CompareTo(a, b) <= 0 }
  predicate AtLeast(a: Date, b: Date) requires !a.isNull && !b.isNull { CompareTo(a, b) >= 0 }

  /**
   * The comparison operators agree with each other: compareTo is
   * antisymmetric, before and after are mirror images, exactly one of
   * before, equal and after holds, and the order is transitive.
   */
  lemma ComparisonConsistent(a: Date, b: Date, c: Date)
    requires !a.isNull && !b.isNull && !c.isNull
    ensures CompareTo(a, b) == -CompareTo(b, a)
    ensures Before(a, b) <==> After(b, a)
    ensures AtMost(a, b) <==> Before(a, b) || Equal(a, b)
    ensures AtLeast(a, b) <==> After(a, b) || Equal(a, b)
    ensures (if Before(a, b) then 1 else 0) + (if Equal(a, b) then 1 else 0) + (if After(a, b) then 1 else 0) == 1
    ensures Before(a, b) && Before(b, c) ==> Before(a, c)
  {
  }

  /** toString: "null" for a null date, otherwise the given rendering of the time. */
  function ToString(d: Date, render: int -> string): (s: string)
    ensures d.isNull ==> s == "null"
    ensures !d.isNull ==> s == render(d.time)
  {
    if d.isNull then "null" else render(d.time)
  }
}

=== FILE: encoded_object.dfy ===
/*******************************************************************************
 *  The encoder-neutral object model every MSL structure is written to and read
 *  from, and the two external services the core relies on to move such objects
 *  through bytes: the object encoder and the session crypto context.
 *******************************************************************************/

module EncodedObject {
  import opened MslBase

  /** A value stored under a key of an encoded object. */
  datatype Value =
    | Str(s: string)
    | Num(n: int)
    | Bytes(b: seq<byte>)
    | Bool(v: bool)
    | Obj(fields: map<string, Value>)

  /** An encoded object: a mapping from field names to values. */
  type Object = map<string, Value>

  /** The error every missing or mistyped field is reported as. */
  const ParseError: Fault := Msl(EncodingKind, MslParseError)

  /** Reads a string field. */
  function GetString(o: Object, key: string): Result<string> {
    if key in o && o[key].Str? then Ok(o[key].s) else Err(ParseError)
  }

  /** Reads a number field. */
  function GetNumber(o: Object, key: string): Result<int> {
    if key in o && o[key].Num? then Ok(o[key].n) else Err(ParseError)
  }

  /** Reads a byte-array field. */
  function GetBytes(o: Object, key: string): Result<seq<byte>> {
    if key in o && o[key].Bytes? then Ok(o[key].b) else Err(ParseError)
  }

  /** Reads a nested-object field. */
  function GetObject(o: Object, key: string): Result<Object> {
    if key in o && o[key].Obj? then Ok(o[key].fields) else Err(ParseError)
  }

  /**
   * Reads an optional nested-object field: absent gives None, present but not
   * an object is a parse error.
   */
  function GetOptObject(o: Object, key: string): Result<Option<Object>> {
    if key !in o then Ok(None)
    else if o[key].Obj? then Ok(Some(o[key].fields))
    else Err(ParseError)
  }

  /**
   * The object encoder: serialises an object to bytes and parses bytes back.
   * Its wire format is outside this core.
   */
  datatype Codec = Codec(encode: Value -> seq<byte>, decode: seq<byte> -> Option<Value>)

  /** An encoder whose parser inverts its serialiser. */
  ghost predicate CodecSound(c: Codec) {
    forall v: Value {:trigger c.encode(v)} :: c.decode(c.encode(v)) == Some(v)
  }

  /**
   * A session crypto context family, keyed by the encryption and HMAC keys a
   * master token carries. Encryption takes an initialisation vector, so two
   * encryptions of the same plaintext may differ.
   */
  datatype CryptoSuite = CryptoSuite(
    encrypt: (seq<byte>, seq<byte>, seq<byte>) -> seq<byte>,
    decrypt: (seq<byte>, seq<byte>) -> Option<seq<byte>>,
    sign: (seq<byte>, seq<byte>) -> seq<byte>,
    verify: (seq<byte>, seq<byte>, seq<byte>) -> bool)

  /** Decryption inverts encryption under the same key, and a signature verifies under the key that made it. */
  ghost predicate CryptoSound(s: CryptoSuite) {
    && (forall k, iv, p {:trigger s.encrypt(k, iv, p)} :: s.decrypt(k, s.encrypt(k, iv, p)) == Some(p))
    && (forall k, d {:trigger s.sign(k, d)} :: s.verify(k, d, s.sign(k, d)))
  }
}

=== FILE: encoder_factory.dfy ===
/*******************************************************************************
 *  The encoder factory's static helpers: JSON string quoting and detection of
 *  the encoder format from the first byte of an encoding.
 *******************************************************************************/

module EncoderFactory {
  import opened MslBase

  const Backspace: char := '\U{0008}'
  const FormFeed: char := '\U{000C}'
  const NoChar: char := '\0'

  /**
   * The escaped form of one character. `prev` is the character before it in
   * the input: a solidus is escaped only after '<', so that "</" never
   * appears in the output.
   */
  function EscapeChar(prev: char, c: char): (r: string)
    ensures 1 <= |r| <= 2
    ensures |r| == 2 ==> r[0] == '\\'
  {
    if c == '\\' || c == '"' then ['\\', c]
    else if c == '/' then (if prev == '<' then ['\\', '/'] else ['/'])
    else if c == Backspace then "\\b"
    else if c == '\t' then "\\t"
    else if c == '\n' then "\\n"
    else if c == FormFeed then "\\f"
    else if c == '\r' then "\\r"
    else [c]
  }

  /** The escaped form of `s`, where `prev` is the character before it. */
  function Escape(s: string, prev: char): string
    decreases |s|
  {
    if |s| == 0 then [] else EscapeChar(prev, s[0]) + Escape(s[1..], s[0])
  }

  /** Escaping a string extended by one character appends that character's escape. */
  lemma {:induction false} EscapeSnoc(s: string, prev: char, c: char)
    ensures Escape(s + [c], prev) == Escape(s, prev) + EscapeChar(if |s| == 0 then prev else s[|s| - 1], c)
    decreases |s|
  {
    if |s| == 0 {
      assert (s + [c])[1..] == [];
    } else {
      assert (s + [c])[1..] == s[1..] + [c];
      EscapeSnoc(s[1..], s[0], c);
    }
  }

  /** quote: the string in double quotes with its special characters escaped. */
  function Quote(s: string): string {
    if |s| == 0 then "\"\"" else "\"" + Escape(s, NoChar) + "\""
  }

  /** quote, as the source builds it: one character at a time, remembering the previous input character. */
  method QuoteString(s: string) returns (q: string)
    ensures q == Quote(s)
  {
    if |s| == 0 {
      return "\"\"";
    }
    var out := "\"";
    var c := NoChar;
    var i := 0;
    while i < |s|
      invariant 0 <= i <= |s|
      invariant c == if i == 0 then NoChar else s[i - 1]
      invariant out == "\"" + Escape(s[..i], NoChar)
    {
      var b := c;
      c := s[i];
      EscapeSnoc(s[..i], NoChar, c);
      assert s[..i + 1] == s[..i] + [c];
      out := out + EscapeChar(b, c);
      i := i + 1;
    }
    assert s[..i] == s;
    return out + "\"";
  }

  /** The character a JSON escape letter stands for. */
  function Unescaped(e: char): char {
    if e == 'b' then Backspace
    else if e == 't' then '\t'
    else if e == 'n' then '\n'
    else if e == 'f' then FormFeed
    else if e == 'r' then '\r'
    else e
  }

  /** Reads back the two-character escapes the quoting produces. */
  function Unescape(t: string): string
    decreases |t|
  {
    if |t| == 0 then []
    else if t[0] == '\\' && |t| >= 2 then [Unescaped(t[1])] + Unescape(t[2..])
    else [t[0]] + Unescape(t[1..])
  }

  /** Removes the quotes and the escapes. */
  function Unquote(q: string): string
    requires |q| >= 2
  {
    Unescape(q[1..|q| - 1])
  }

  lemma UnescapeChar(prev: char, c: char, rest: string)
    ensures Unescape(EscapeChar(prev, c) + rest) == [c] + Unescape(rest)
  {
    var e := EscapeChar(prev, c);
    if |e| == 2 {
      assert (e + rest)[2..] == rest;
    } else {
      assert (e + rest)[1..] == rest;
    }
  }

  /** Escaping loses nothing: every input reads back from its escaped form. */
  lemma {:induction false} EscapeRoundTrip(s: string, prev: char)
    ensures Unescape(Escape(s, prev)) == s
    decreases |s|
  {
    if |s| > 0 {
      EscapeRoundTrip(s[1..], s[0]);
      UnescapeChar(prev, s[0], Escape(s[1..], s[0]));
    }
  }

  /** A quoted string is framed by double quotes and unquotes to the input. */
  lemma QuoteRoundTrip(s: string)
    ensures |Quote(s)| >= |s| + 2
    ensures Quote(s)[0] == '"' && Quote(s)[|Quote(s)| - 1] == '"'
    ensures Unquote(Quote(s)) == s
  {
    EscapeLength(s, NoChar);
    if |s| > 0 {
      EscapeRoundTrip(s, NoChar);
      assert Quote(s)[1..|Quote(s)| - 1] == Escape(s, NoChar);
    }
  }

  /** None of the five named control characters survives escaping raw. */
  lemma {:induction false} EscapeLeavesNoNamedControl(s: string, prev: char)
    ensures forall i :: 0 <= i < |Escape(s, prev)| ==>
      Escape(s, prev)[i] !in {Backspace, '\t', '\n', FormFeed, '\r'}
    decreases |s|
  {
    if |s| > 0 {
      EscapeLeavesNoNamedControl(s[1..], s[0]);
      var head := EscapeChar(prev, s[0]);
      var tail := Escape(s[1..], s[0]);
      forall i | 0 <= i < |head + tail|
        ensures (head + tail)[i] !in {Backspace, '\t', '\n', FormFeed, '\r'}
      {
        if i >= |head| {
          assert (head + tail)[i] == tail[i - |head|];
        }
      }
    }
  }

  /**
   * The escaped text never contains "</", so a quoted string cannot close an
   * HTML script element; after a '<' the escape does not start with '/'.
   */
  lemma {:induction false} EscapeNeverClosesScript(s: string, prev: char)
    ensures forall i :: 0 <= i < |Escape(s, prev)| - 1 ==>
      !(Escape(s, prev)[i] == '<' && Escape(s, prev)[i + 1] == '/')
    ensures prev == '<' && |Escape(s, prev)| > 0 ==> Escape(s, prev)[0] != '/'
    decreases |s|
  {
    if |s| > 0 {
      EscapeNeverClosesScript(s[1..], s[0]);
      var head := EscapeChar(prev, s[0]);
      var tail := Escape(s[1..], s[0]);
      var e := head + tail;
      assert head[|head| - 1] == '<' ==> s[0] == '<';
      forall i | 0 <= i < |e| - 1
        ensures !(e[i] == '<' && e[i + 1] == '/')
      {
        if i >= |head| {
          assert e[i] == tail[i - |head|] && e[i + 1] == tail[i + 1 - |head|];
        } else if i == |head| - 1 {
          assert e[i + 1] == tail[0];
        }
      }
    }
  }

  lemma {:induction false} EscapeLength(s: string, prev: char)
    ensures |s| <= |Escape(s, prev)| <= 2 * |s|
    decreases |s|
  {
    if |s| > 0 {
      EscapeLength(s[1..], s[0]);
    }
  }

  // ---------------------------------------------------------------------------
  // Encoder format detection
  // ---------------------------------------------------------------------------

  /** The registered encoder formats, by identifier byte. */
  type FormatRegistry = map<byte, string>

  /** parseFormat: the first byte names the format; an empty or unknown identifier is an encoder error. */
  function ParseFormat(formats: FormatRegistry, encoding: seq<byte>): (r: Result<string>)
    ensures |encoding| == 0 ==> r == Err(EncoderError)
    ensures r.Ok? <==> |encoding| > 0 && encoding[0] in formats
    ensures r.Ok? ==> r.value == formats[encoding[0]]
    ensures r.Err? ==> r.fault == EncoderError
  {
    if |encoding| < 1 then Err(EncoderError)
    else if encoding[0] !in formats then Err(EncoderError)
    else Ok(formats[encoding[0]])
  }

  /**
   * An encoding's identifier byte is recognised exactly when a format is
   * registered for it; the encoding then parses to that format whatever
   * follows the identifier, and an unregistered identifier is an encoder error.
   */
  lemma FormatRecognisedIffRegistered(formats: FormatRegistry, id: byte, body: seq<byte>)
    ensures ParseFormat(formats, [id] + body).Ok? <==> id in formats
    ensures id in formats ==> ParseFormat(formats, [id] + body) == Ok(formats[id])
    ensures id !in formats ==> ParseFormat(formats, [id] + body) == Err(EncoderError)
  {
  }
}

=== FILE: entity_auth.dfy ===
/*******************************************************************************
 *  Entity authentication data: the scheme registry and its dispatch, the
 *  factories' createData, the master-token-protected composite, per-scheme
 *  equality, and the RSA/ECC key-pair resolution behind getCryptoContext.
 *******************************************************************************/

module EntityAuth {
  import opened MslBase
  import opened EncodedObject
  import opened Tokens

  /** The entity authentication schemes this model covers, named as on the wire. */
  datatype EntityScheme = NONE | NONE_SUFFIXED | RSA | ECC | MT_PROTECTED

  /** The scheme's wire name. */
  function SchemeName(s: EntityScheme): string {
    match s
    case NONE => "NONE"
    case NONE_SUFFIXED => "NONE_SUFFIXED"
    case RSA => "RSA"
    case ECC => "ECC"
    case MT_PROTECTED => "MT_PROTECTED"
  }

  /** Resolves a wire name to a scheme; the inverse of SchemeName. */
  function SchemeFromName(name: string): (r: Option<EntityScheme>)
    ensures r.Some? ==> SchemeName(r.value) == name
    ensures forall s :: SchemeName(s) == name ==> r == Some(s)
  {
    if name == "NONE" then Some(NONE)
    else if name == "NONE_SUFFIXED" then Some(NONE_SUFFIXED)
    else if name == "RSA" then Some(RSA)
    else if name == "ECC" then Some(ECC)
    else if name == "MT_PROTECTED" then Some(MT_PROTECTED)
    else None
  }

  /** Entity authentication data, one variant per scheme. */
  datatype EntityAuthData =
    | Unauthenticated(identity: string)
    | UnauthenticatedSuffixed(root: string, suffix: string)
    | RsaData(identity: string, pubkeyId: string)
    | EccData(identity: string, pubkeyId: string)
    | MasterTokenProtected(masterToken: MasterToken, encapsulated: EntityAuthData)

  function SchemeOf(d: EntityAuthData): EntityScheme {
    match d
    case Unauthenticated(_) => NONE
    case UnauthenticatedSuffixed(_, _) => NONE_SUFFIXED
    case RsaData(_, _) => RSA
    case EccData(_, _) => ECC
    case MasterTokenProtected(_, _) => MT_PROTECTED
  }

  /** The entity identity; a suffixed identity joins root and suffix with a dot. */
  function IdentityOf(d: EntityAuthData): string {
    match d
    case Unauthenticated(identity) => identity
    case UnauthenticatedSuffixed(root, suffix) => root + "." + suffix
    case RsaData(identity, _) => identity
    case EccData(identity, _) => identity
    case MasterTokenProtected(_, inner) => IdentityOf(inner)
  }

  /** How many master-token-protected layers wrap the innermost datum. */
  function Depth(d: EntityAuthData): nat {
    if d.MasterTokenProtected? then 1 + Depth(d.encapsulated) else 0
  }

  /**
   * Wraps `inner` under `mt`'s session crypto context. The composite keeps the
   * encapsulated identity but carries its own scheme tag.
   */
  function CreateMasterTokenProtected(mt: MasterToken, inner: EntityAuthData): (r: EntityAuthData)
    ensures IdentityOf(r) == IdentityOf(inner)
    ensures SchemeOf(r) == MT_PROTECTED
    ensures r.encapsulated == inner && r.masterToken == mt
  {
    MasterTokenProtected(mt, inner)
  }

  // ---------------------------------------------------------------------------
  // Encoding
  // ---------------------------------------------------------------------------

  /** The encoded datum: the scheme tag and the scheme-specific authentication data. */
  function Encode(d: EntityAuthData, suite: CryptoSuite, codec: Codec, iv: seq<byte>): Object
    decreases d, 1
  {
    map["scheme" := Str(SchemeName(SchemeOf(d))), "authdata" := Obj(AuthData(d, suite, codec, iv))]
  }

  /**
   * The scheme-specific fields. The master-token-protected variant serialises
   * the encapsulated datum, encrypts it under the master token's session keys
   * and signs the ciphertext.
   */
  function AuthData(d: EntityAuthData, suite: CryptoSuite, codec: Codec, iv: seq<byte>): Object
    decreases d, 0
  {
    match d
    case Unauthenticated(identity) => map["identity" := Str(identity)]
    case UnauthenticatedSuffixed(root, suffix) => map["root" := Str(root), "suffix" := Str(suffix)]
    case RsaData(identity, keyId) => map["identity" := Str(identity), "pubkeyid" := Str(keyId)]
    case EccData(identity, keyId) => map["identity" := Str(identity), "pubkeyid" := Str(keyId)]
    case MasterTokenProtected(mt, inner) =>
      var plaintext := codec.encode(Obj(Encode(inner, suite, codec, iv)));
      var ciphertext := suite.encrypt(mt.encryptionKey, iv, plaintext);
      map[
        "mastertoken" := Obj(EncodeMasterToken(mt)),
        "authdata" := Bytes(ciphertext),
        "signature" := Bytes(suite.sign(mt.hmacKey, ciphertext))]
  }

  /** The composite's encoding carries the protected scheme tag and the master token's own encoding. */
  lemma MasterTokenProtectedEncoding(mt: MasterToken, inner: EntityAuthData, suite: CryptoSuite, codec: Codec, iv: seq<byte>)
    ensures Encode(MasterTokenProtected(mt, inner), suite, codec, iv)["scheme"] == Str("MT_PROTECTED")
    ensures AuthData(MasterTokenProtected(mt, inner), suite, codec, iv)["mastertoken"] == Obj(EncodeMasterToken(mt))
  {
  }

  // ---------------------------------------------------------------------------
  // Factories' createData
  // ---------------------------------------------------------------------------

  /** The unauthenticated factory's createData. */
  function CreateUnauthenticatedData(o: Object): (r: Result<EntityAuthData>)
    ensures "identity" !in o ==> r == Err(ParseError)
    ensures r.Ok? ==> r.value.Unauthenticated?
  {
    var identity :- GetString(o, "identity");
    Ok(Unauthenticated(identity))
  }

  /** The unauthenticated-suffixed factory's createData. */
  function CreateSuffixedData(o: Object): (r: Result<EntityAuthData>)
    ensures "root" !in o || "suffix" !in o ==> r == Err(ParseError)
    ensures r.Ok? ==> r.value.UnauthenticatedSuffixed?
  {
    var root :- GetString(o, "root");
    var suffix :- GetString(o, "suffix");
    Ok(UnauthenticatedSuffixed(root, suffix))
  }

  /** The RSA factory's createData. */
  function CreateRsaData(o: Object): (r: Result<EntityAuthData>)
    ensures "identity" !in o || "pubkeyid" !in o ==> r == Err(ParseError)
    ensures r.Ok? ==> r.value.RsaData?
  {
    var identity :- GetString(o, "identity");
    var keyId :- GetString(o, "pubkeyid");
    Ok(RsaData(identity, keyId))
  }

  /** The ECC factory's createData. */
  function CreateEccData(o: Object): (r: Result<EntityAuthData>)
    ensures "identity" !in o || "pubkeyid" !in o ==> r == Err(ParseError)
    ensures r.Ok? ==> r.value.EccData?
  {
    var identity :- GetString(o, "identity");
    var keyId :- GetString(o, "pubkeyid");
    Ok(EccData(identity, keyId))
  }

  /** A factory's createData reconstructs every single-layer datum from its own authentication data. */
  lemma CreateDataRoundTrip(d: EntityAuthData, suite: CryptoSuite, codec: Codec, iv: seq<byte>)
    requires !d.MasterTokenProtected?
    ensures d.Unauthenticated? ==> CreateUnauthenticatedData(AuthData(d, suite, codec, iv)) == Ok(d)
    ensures d.UnauthenticatedSuffixed? ==> CreateSuffixedData(AuthData(d, suite, codec, iv)) == Ok(d)
    ensures d.RsaData? ==> CreateRsaData(AuthData(d, suite, codec, iv)) == Ok(d)
    ensures d.EccData? ==> CreateEccData(AuthData(d, suite, codec, iv)) == Ok(d)
  {
  }

  // ---------------------------------------------------------------------------
  // Registry dispatch and the master-token-protected parser
  // ---------------------------------------------------------------------------

  /**
   * What a parse needs from its execution context: the schemes that have a
   * registered factory, the session crypto context family and the encoder.
   */
  datatype ParseContext = ParseContext(factories: set<EntityScheme>, suite: CryptoSuite, codec: Codec)

  /**
   * Parses encoded entity authentication data. `fuel` bounds the number of
   * master-token-protected layers that will be unwrapped.
   */
  function ParseEntityAuthData(ctx: ParseContext, o: Object, fuel: nat): (r: Result<EntityAuthData>)
    decreases fuel, 2
    ensures "scheme" !in o || "authdata" !in o ==> r == Err(ParseError)
    ensures "scheme" in o && o["scheme"].Str? && "authdata" in o && o["authdata"].Obj? ==>
      && (SchemeFromName(o["scheme"].s).None? ==> r == Err(Msl(EntityAuthKind, UnidentifiedEntityAuthScheme)))
      && (SchemeFromName(o["scheme"].s).Some? && SchemeFromName(o["scheme"].s).value !in ctx.factories ==>
            r == Err(Msl(EntityAuthKind, EntityAuthFactoryNotFound)))
      && (SchemeFromName(o["scheme"].s).Some? && SchemeFromName(o["scheme"].s).value in ctx.factories ==>
            r == CreateData(ctx, SchemeFromName(o["scheme"].s).value, o["authdata"].fields, fuel))
    ensures r.Ok? ==> SchemeOf(r.value) in ctx.factories && o["scheme"] == Str(SchemeName(SchemeOf(r.value)))
  {
    var name :- GetString(o, "scheme");
    var authdata :- GetObject(o, "authdata");
    match SchemeFromName(name)
    case None => Err(Msl(EntityAuthKind, UnidentifiedEntityAuthScheme))
    case Some(scheme) =>
      if scheme !in ctx.factories then Err(Msl(EntityAuthKind, EntityAuthFactoryNotFound))
      else CreateData(ctx, scheme, authdata, fuel)
  }

  /** Hands the authentication data to the factory of `scheme`. */
  function CreateData(ctx: ParseContext, scheme: EntityScheme, o: Object, fuel: nat): (r: Result<EntityAuthData>)
    decreases fuel, 1
    ensures r.Ok? ==> SchemeOf(r.value) == scheme
  {
    match scheme
    case NONE => CreateUnauthenticatedData(o)
    case NONE_SUFFIXED => CreateSuffixedData(o)
    case RSA => CreateRsaData(o)
    case ECC => CreateEccData(o)
    case MT_PROTECTED => ParseMasterTokenProtected(ctx, o, fuel)
  }

  /** The master token object, the ciphertext and the signature are all present with their types. */
  predicate ProtectedFieldsPresent(o: Object) {
    && "mastertoken" in o && o["mastertoken"].Obj?
    && "authdata" in o && o["authdata"].Bytes?
    && "signature" in o && o["signature"].Bytes?
  }

  /**
   * Parses master-token-protected authentication data: structural checks, then
   * the master token, then signature verification before decryption, then the
   * encapsulated datum.
   */
  function ParseMasterTokenProtected(ctx: ParseContext, o: Object, fuel: nat): (r: Result<EntityAuthData>)
    decreases fuel, 0
    ensures "mastertoken" !in o || !o["mastertoken"].Obj? ==> r == Err(ParseError)
    ensures "authdata" !in o || !o["authdata"].Bytes? ==> r == Err(ParseError)
    ensures "signature" !in o || !o["signature"].Bytes? ==> r == Err(ParseError)
    ensures r.Ok? ==> r.value.MasterTokenProtected? && ParseMasterToken(o["mastertoken"].fields) == Ok(r.value.masterToken)
    ensures r.Ok? ==> ProtectedFieldsPresent(o)
    ensures r.Ok? ==> ctx.suite.verify(r.value.masterToken.hmacKey, o["authdata"].b, o["signature"].b)
    ensures r.Ok? ==> ctx.suite.decrypt(r.value.masterToken.encryptionKey, o["authdata"].b).Some?
    ensures ProtectedFieldsPresent(o) && ParseMasterToken(o["mastertoken"].fields).Ok? ==>
      var mt := ParseMasterToken(o["mastertoken"].fields).value;
      && (!ctx.suite.verify(mt.hmacKey, o["authdata"].b, o["signature"].b) ==>
            r == Err(Msl(EntityAuthKind, EntityAuthSignatureInvalid)))
      && (ctx.suite.verify(mt.hmacKey, o["authdata"].b, o["signature"].b) &&
          ctx.suite.decrypt(mt.encryptionKey, o["authdata"].b).None? ==>
            r == Err(Msl(EntityAuthKind, EntityAuthCiphertextInvalid)))
  {
    var mto :- GetObject(o, "mastertoken");
    var ciphertext :- GetBytes(o, "authdata");
    var signature :- GetBytes(o, "signature");
    match ParseMasterToken(mto)
    case Err(_) => Err(Msl(EntityAuthKind, EntityAuthMasterTokenInvalid))
    case Ok(mt) =>
      if !ctx.suite.verify(mt.hmacKey, ciphertext, signature) then
        Err(Msl(EntityAuthKind, EntityAuthSignatureInvalid))
      else
        match ctx.suite.decrypt(mt.encryptionKey, ciphertext)
        case None => Err(Msl(EntityAuthKind, EntityAuthCiphertextInvalid))
        case Some(plaintext) =>
          match ctx.codec.decode(plaintext)
          case Some(Obj(inner)) =>
            if fuel == 0 then Err(Internal)
            else
              var e :- ParseEntityAuthData(ctx, inner, fuel - 1);
              Ok(MasterTokenProtected(mt, e))
          case _ => Err(ParseError)
  }

  /** An object-typed master token field that is not a token is reported as an invalid master token. */
  lemma InvalidMasterTokenRejected(ctx: ParseContext, o: Object, fuel: nat)
    requires "mastertoken" in o && o["mastertoken"].Obj?
    requires "authdata" in o && o["authdata"].Bytes?
    requires "signature" in o && o["signature"].Bytes?
    requires ParseMasterToken(o["mastertoken"].fields).Err?
    ensures ParseMasterTokenProtected(ctx, o, fuel) == Err(Msl(EntityAuthKind, EntityAuthMasterTokenInvalid))
  {
  }

  /** Every scheme in the datum has a registered factory and every master token in it is decrypted. */
  predicate Parsable(d: EntityAuthData, factories: set<EntityScheme>) {
    SchemeOf(d) in factories &&
    (d.MasterTokenProtected? ==> d.masterToken.decrypted && Parsable(d.encapsulated, factories))
  }

  /**
   * Encoding then parsing gives the datum back, whatever initialisation vector
   * the encryption used, provided the crypto context and encoder are sound and
   * every layer has a registered factory.
   */
  lemma {:induction false} ParseEncodeRoundTrip(ctx: ParseContext, d: EntityAuthData, iv: seq<byte>, fuel: nat)
    requires CryptoSound(ctx.suite) && CodecSound(ctx.codec)
    requires Parsable(d, ctx.factories)
    requires Depth(d) <= fuel
    ensures ParseEntityAuthData(ctx, Encode(d, ctx.suite, ctx.codec, iv), fuel) == Ok(d)
    decreases d
  {
    if d.MasterTokenProtected? {
      ParseEncodeRoundTrip(ctx, d.encapsulated, iv, fuel - 1);
      ProtectedLayerRoundTrip(ctx, d.masterToken, d.encapsulated, iv, fuel);
    } else {
      SingleLayerRoundTrip(ctx, d, iv, fuel);
    }
  }

  /** A single-layer datum is rebuilt by its scheme's factory. */
  lemma SingleLayerRoundTrip(ctx: ParseContext, d: EntityAuthData, iv: seq<byte>, fuel: nat)
    requires !d.MasterTokenProtected? && SchemeOf(d) in ctx.factories
    ensures ParseEntityAuthData(ctx, Encode(d, ctx.suite, ctx.codec, iv), fuel) == Ok(d)
  {
    CreateDataRoundTrip(d, ctx.suite, ctx.codec, iv);
    DispatchEncoded(ctx, d, iv, fuel);
  }

  /** One protected layer opens to its master token and the encapsulated datum the layer below parses to. */
  lemma ProtectedLayerRoundTrip(ctx: ParseContext, mt: MasterToken, inner: EntityAuthData, iv: seq<byte>, fuel: nat)
    requires CryptoSound(ctx.suite) && CodecSound(ctx.codec)
    requires mt.decrypted && 0 < fuel
    requires ParseEntityAuthData(ctx, Encode(inner, ctx.suite, ctx.codec, iv), fuel - 1) == Ok(inner)
    ensures ParseMasterTokenProtected(ctx, AuthData(MasterTokenProtected(mt, inner), ctx.suite, ctx.codec, iv), fuel)
      == Ok(MasterTokenProtected(mt, inner))
    ensures MT_PROTECTED in ctx.factories ==>
      ParseEntityAuthData(ctx, Encode(MasterTokenProtected(mt, inner), ctx.suite, ctx.codec, iv), fuel)
      == Ok(MasterTokenProtected(mt, inner))
  {
    ProtectedLayerOpens(ctx, mt, inner, iv, fuel);
    if MT_PROTECTED in ctx.factories {
      DispatchEncoded(ctx, MasterTokenProtected(mt, inner), iv, fuel);
    }
  }

  /** The parser half of ProtectedLayerRoundTrip. */
  lemma ProtectedLayerOpens(ctx: ParseContext, mt: MasterToken, inner: EntityAuthData, iv: seq<byte>, fuel: nat)
    requires CryptoSound(ctx.suite) && CodecSound(ctx.codec)
    requires mt.decrypted && 0 < fuel
    requires ParseEntityAuthData(ctx, Encode(inner, ctx.suite, ctx.codec, iv), fuel - 1) == Ok(inner)
    ensures ParseMasterTokenProtected(ctx, AuthData(MasterTokenProtected(mt, inner), ctx.suite, ctx.codec, iv), fuel)
      == Ok(MasterTokenProtected(mt, inner))
  {
    var suite, codec := ctx.suite, ctx.codec;
    var plaintext := codec.encode(Obj(Encode(inner, suite, codec, iv)));
    var ciphertext := suite.encrypt(mt.encryptionKey, iv, plaintext);
    var o := AuthData(MasterTokenProtected(mt, inner), suite, codec, iv);
    assert GetObject(o, "mastertoken") == Ok(EncodeMasterToken(mt));
    assert GetBytes(o, "authdata") == Ok(ciphertext);
    assert GetBytes(o, "signature") == Ok(suite.sign(mt.hmacKey, ciphertext));
    assert suite.decrypt(mt.encryptionKey, ciphertext) == Some(plaintext);
    assert suite.verify(mt.hmacKey, ciphertext, suite.sign(mt.hmacKey, ciphertext));
    assert codec.decode(plaintext) == Some(Obj(Encode(inner, suite, codec, iv)));
    MasterTokenRoundTrip(mt);
  }

  /** The registry hands an encoded datum's authentication data to the factory of its own scheme. */
  lemma DispatchEncoded(ctx: ParseContext, d: EntityAuthData, iv: seq<byte>, fuel: nat)
    requires SchemeOf(d) in ctx.factories
    ensures ParseEntityAuthData(ctx, Encode(d, ctx.suite, ctx.codec, iv), fuel)
      == CreateData(ctx, SchemeOf(d), AuthData(d, ctx.suite, ctx.codec, iv), fuel)
  {
    NameResolvesToScheme(SchemeOf(d));
    var o := Encode(d, ctx.suite, ctx.codec, iv);
    assert GetString(o, "scheme") == Ok(SchemeName(SchemeOf(d)));
    assert GetObject(o, "authdata") == Ok(AuthData(d, ctx.suite, ctx.codec, iv));
  }

  /** A scheme's own wire name resolves back to it. */
  lemma NameResolvesToScheme(s: EntityScheme)
    ensures SchemeFromName(SchemeName(s)) == Some(s)
  {
  }

  // ---------------------------------------------------------------------------
  // Equality
  // ---------------------------------------------------------------------------

  /**
   * Per-scheme equality: identity and key fields for the single-layer schemes;
   * the master token and the encapsulated datum for the composite. The
   * composite's ciphertext is not part of it.
   */
  predicate Equal(a: EntityAuthData, b: EntityAuthData) {
    match a
    case Unauthenticated(identity) => b.Unauthenticated? && b.identity == identity
    case UnauthenticatedSuffixed(root, suffix) => b.UnauthenticatedSuffixed? && b.root == root && b.suffix == suffix
    case RsaData(identity, keyId) => b.RsaData? && b.identity == identity && b.pubkeyId == keyId
    case EccData(identity, keyId) => b.EccData? && b.identity == identity && b.pubkeyId == keyId
    case MasterTokenProtected(mt, inner) =>
      b.MasterTokenProtected? && SameMasterToken(mt, b.masterToken) && Equal(inner, b.encapsulated)
  }

  /** Equality is reflexive and symmetric. */
  lemma {:induction false} EqualReflexiveSymmetric(a: EntityAuthData, b: EntityAuthData)
    ensures Equal(a, a)
    ensures Equal(a, b) ==> Equal(b, a)
  {
    match a
    case MasterTokenProtected(_, inner) =>
      EqualReflexiveSymmetric(inner, inner);
      if b.MasterTokenProtected? {
        EqualReflexiveSymmetric(inner, b.encapsulated);
      }
    case _ =>
  }

  /** Two composites differ when their master tokens differ or their encapsulated data differ. */
  lemma CompositeInequality(mt1: MasterToken, mt2: MasterToken, e1: EntityAuthData, e2: EntityAuthData)
    ensures !SameMasterToken(mt1, mt2) ==> !Equal(MasterTokenProtected(mt1, e1), MasterTokenProtected(mt2, e2))
    ensures !Equal(e1, e2) ==> !Equal(MasterTokenProtected(mt1, e1), MasterTokenProtected(mt2, e2))
  {
  }

  /** A value a datum may be compared with: nothing, a string, or another datum. */
  datatype Comparand = NullRef | Text(s: string) | AuthData(d: EntityAuthData)

  /** Equality against an arbitrary value: only another datum can be equal. */
  predicate EqualsValue(d: EntityAuthData, other: Comparand)
    ensures EqualsValue(d, other) ==> other.AuthData?
  {
    other.AuthData? && Equal(d, other.d)
  }

  /** A datum equals its own re-parsed encoding, even though the ciphertext was regenerated. */
  lemma ReparsedEqual(ctx: ParseContext, d: EntityAuthData, iv: seq<byte>, fuel: nat)
    requires CryptoSound(ctx.suite) && CodecSound(ctx.codec)
    requires Parsable(d, ctx.factories)
    requires Depth(d) <= fuel
    ensures ParseEntityAuthData(ctx, Encode(d, ctx.suite, ctx.codec, iv), fuel).Ok?
    ensures Equal(d, ParseEntityAuthData(ctx, Encode(d, ctx.suite, ctx.codec, iv), fuel).value)
  {
    ParseEncodeRoundTrip(ctx, d, iv, fuel);
    EqualReflexiveSymmetric(d, d);
  }

  // ---------------------------------------------------------------------------
  // Crypto context resolution
  // ---------------------------------------------------------------------------

  type Key = seq<byte>

  /** A key store: public and private keys indexed by key identifier. */
  datatype KeyStore = KeyStore(publicKeys: map<string, Key>, privateKeys: map<string, Key>)

  /** Revocation records and per-identity scheme permissions. */
  datatype AuthUtils = AuthUtils(revoked: set<string>, permitted: set<(string, EntityScheme)>)

  /** An RSA or ECC authentication factory: its scheme, its own key pair identifier and its stores. */
  datatype AsymmetricFactory = AsymmetricFactory(scheme: EntityScheme, keyPairId: string, store: KeyStore, authutils: AuthUtils)

  /** The ECC factory built without a key pair identifier: its local key pair identifier is the empty string. */
  function EccFactoryWithoutKeyPair(store: KeyStore, authutils: AuthUtils): (f: AsymmetricFactory)
    ensures f.scheme == ECC && f.keyPairId == ""
  {
    AsymmetricFactory(ECC, "", store, authutils)
  }

  /** A crypto context for entity authentication. */
  datatype EntityCryptoContext =
    | NullCryptoContext
    | SignVerifyContext(identity: string, privateKey: Option<Key>, publicKey: Option<Key>)
  {
    /** Only a context holding a private key can sign. */
    predicate CanSign() {
      SignVerifyContext? && privateKey.Some?
    }
  }

  /** The error codes of an asymmetric factory's two key lookups. */
  function PrivateKeyNotFound(scheme: EntityScheme): Code {
    if scheme == RSA then RsaPrivateKeyNotFound else EccPrivateKeyNotFound
  }

  function PublicKeyNotFound(scheme: EntityScheme): Code {
    if scheme == RSA then RsaPublicKeyNotFound else EccPublicKeyNotFound
  }

  /**
   * getCryptoContext of the RSA and ECC factories. The factory's own key pair
   * identifier marks the local entity, which needs a private key; any other
   * identifier names a remote entity, which needs a public key.
   */
  function GetAsymmetricCryptoContext(f: AsymmetricFactory, d: EntityAuthData): (r: Result<EntityCryptoContext>)
    requires f.scheme == RSA || f.scheme == ECC
    ensures SchemeOf(d) != f.scheme ==> r == Err(Internal)
    ensures SchemeOf(d) == f.scheme && IdentityOf(d) in f.authutils.revoked ==>
      r == Err(Msl(EntityAuthKind, EntityRevoked))
    ensures (SchemeOf(d) == f.scheme && IdentityOf(d) !in f.authutils.revoked &&
             (IdentityOf(d), f.scheme) !in f.authutils.permitted) ==>
      r == Err(Msl(EntityAuthKind, IncorrectEntityAuthData))
    ensures r.Ok? ==> r.value.SignVerifyContext? && r.value.identity == IdentityOf(d)
    ensures r.Ok? ==>
      IdentityOf(d) !in f.authutils.revoked && (IdentityOf(d), f.scheme) in f.authutils.permitted
    ensures r.Ok? && d.pubkeyId == f.keyPairId ==> r.value.CanSign()
    ensures r.Ok? && d.pubkeyId != f.keyPairId ==> r.value.publicKey.Some?
    ensures r.Ok? ==>
      r.value.privateKey == (if d.pubkeyId in f.store.privateKeys then Some(f.store.privateKeys[d.pubkeyId]) else None) &&
      r.value.publicKey == (if d.pubkeyId in f.store.publicKeys then Some(f.store.publicKeys[d.pubkeyId]) else None)
  {
    if SchemeOf(d) != f.scheme then Err(Internal)
    else
      var identity := IdentityOf(d);
      if identity in f.authutils.revoked then Err(Msl(EntityAuthKind, EntityRevoked))
      else if (identity, f.scheme) !in f.authutils.permitted then Err(Msl(EntityAuthKind, IncorrectEntityAuthData))
      else
        var keyId := d.pubkeyId;
        var publicKey := if keyId in f.store.publicKeys then Some(f.store.publicKeys[keyId]) else None;
        var privateKey := if keyId in f.store.privateKeys then Some(f.store.privateKeys[keyId]) else None;
        if keyId == f.keyPairId && privateKey.None? then Err(Msl(EntityAuthKind, PrivateKeyNotFound(f.scheme)))
        else if keyId != f.keyPairId && publicKey.None? then Err(Msl(EntityAuthKind, PublicKeyNotFound(f.scheme)))
        else Ok(SignVerifyContext(identity, privateKey, publicKey))
  }

  /**
   * The outcome for a permitted, unrevoked entity is decided by its key
   * identifier alone: unknown remote identifiers lack a public key, a local
   * identifier without a private key lacks the private key, everything else
   * resolves.
   */
  lemma KeyResolution(f: AsymmetricFactory, d: EntityAuthData)
    requires f.scheme == RSA || f.scheme == ECC
    requires SchemeOf(d) == f.scheme
    requires IdentityOf(d) !in f.authutils.revoked && (IdentityOf(d), f.scheme) in f.authutils.permitted
    ensures d.pubkeyId != f.keyPairId && d.pubkeyId !in f.store.publicKeys ==>
      GetAsymmetricCryptoContext(f, d) == Err(Msl(EntityAuthKind, PublicKeyNotFound(f.scheme)))
    ensures d.pubkeyId == f.keyPairId && d.pubkeyId !in f.store.privateKeys ==>
      GetAsymmetricCryptoContext(f, d) == Err(Msl(EntityAuthKind, PrivateKeyNotFound(f.scheme)))
    ensures GetAsymmetricCryptoContext(f, d).Ok? <==>
      (if d.pubkeyId == f.keyPairId then d.pubkeyId in f.store.privateKeys else d.pubkeyId in f.store.publicKeys)
  {
  }

  /**
   * With no key pair identifier of its own, a factory still treats an entity
   * whose key identifier is the empty string as local.
   */
  lemma EmptyKeyIdIsLocal(store: KeyStore, authutils: AuthUtils, identity: string)
    requires identity !in authutils.revoked && (identity, ECC) in authutils.permitted
    requires "" !in store.privateKeys
    ensures GetAsymmetricCryptoContext(EccFactoryWithoutKeyPair(store, authutils), EccData(identity, ""))
      == Err(Msl(EntityAuthKind, EccPrivateKeyNotFound))
  {
  }

  /**
   * getCryptoContext of the unauthenticated and unauthenticated-suffixed
   * factories: a null context for their own data.
   */
  function GetUnauthenticatedCryptoContext(scheme: EntityScheme, d: EntityAuthData): (r: Result<EntityCryptoContext>)
    requires scheme == NONE || scheme == NONE_SUFFIXED
    ensures r.Ok? <==> SchemeOf(d) == scheme
    ensures r.Ok? ==> r.value == NullCryptoContext && !r.value.CanSign()
  {
    if SchemeOf(d) != scheme then Err(Internal) else Ok(NullCryptoContext)
  }
}

=== FILE: key_exchange.dfy ===
/*******************************************************************************
 *  Key exchange request and response data: the scheme registry and the
 *  dispatch that parses them. The per-scheme key data stays an opaque object.
 *******************************************************************************/

module KeyExchange {
  import opened MslBase
  import opened EncodedObject
  import opened Tokens

  /** The key exchange schemes, named as on the wire. */
  datatype KeyxScheme = ASYMMETRIC_WRAPPED | SYMMETRIC_WRAPPED | DIFFIE_HELLMAN | JWE_LADDER | JWK_LADDER

  /** The scheme's wire name. */
  function SchemeName(s: KeyxScheme): string {
    match s
    case ASYMMETRIC_WRAPPED => "ASYMMETRIC_WRAPPED"
    case SYMMETRIC_WRAPPED => "SYMMETRIC_WRAPPED"
    case DIFFIE_HELLMAN => "DIFFIE_HELLMAN"
    case JWE_LADDER => "JWE_LADDER"
    case JWK_LADDER => "JWK_LADDER"
  }

  /** Resolves a wire name to a scheme; the inverse of SchemeName. */
  function SchemeFromName(name: string): (r: Option<KeyxScheme>)
    ensures r.Some? ==> SchemeName(r.value) == name
    ensures forall s :: SchemeName(s) == name ==> r == Some(s)
  {
    if name == "ASYMMETRIC_WRAPPED" then Some(ASYMMETRIC_WRAPPED)
    else if name == "SYMMETRIC_WRAPPED" then Some(SYMMETRIC_WRAPPED)
    else if name == "DIFFIE_HELLMAN" then Some(DIFFIE_HELLMAN)
    else if name == "JWE_LADDER" then Some(JWE_LADDER)
    else if name == "JWK_LADDER" then Some(JWK_LADDER)
    else None
  }

  /** A key request: the scheme and the scheme's key data. */
  datatype KeyRequestData = KeyRequestData(scheme: KeyxScheme, keydata: Object)

  /** A key response: the new master token, the scheme and the scheme's key data. */
  datatype KeyResponseData = KeyResponseData(masterToken: MasterToken, scheme: KeyxScheme, keydata: Object)

  const UnidentifiedScheme: Fault := Msl(KeyExchangeKind, UnidentifiedKeyxScheme)
  const FactoryNotFound: Fault := Msl(KeyExchangeKind, KeyxFactoryNotFound)

  /** Resolves a scheme name against the schemes that have a registered factory. */
  function ResolveScheme(factories: set<KeyxScheme>, name: string): (r: Result<KeyxScheme>)
    ensures r.Ok? <==> SchemeFromName(name).Some? && SchemeFromName(name).value in factories
    ensures SchemeFromName(name).None? ==> r == Err(UnidentifiedScheme)
    ensures r.Ok? ==> SchemeName(r.value) == name
  {
    match SchemeFromName(name)
    case None => Err(UnidentifiedScheme)
    case Some(scheme) => if scheme in factories then Ok(scheme) else Err(FactoryNotFound)
  }

  function EncodeKeyRequestData(r: KeyRequestData): Object {
    map["scheme" := Str(SchemeName(r.scheme)), "keydata" := Obj(r.keydata)]
  }

  /** Parses key request data. Field errors come before scheme resolution. */
  function ParseKeyRequestData(factories: set<KeyxScheme>, o: Object): (r: Result<KeyRequestData>)
    ensures "scheme" !in o || "keydata" !in o ==> r == Err(ParseError)
    ensures r.Ok? ==> r.value.scheme in factories && Obj(r.value.keydata) == o["keydata"]
    ensures "keydata" in o && o["keydata"].Obj? && "scheme" in o && o["scheme"].Str? ==>
      var name := o["scheme"].s;
      && (SchemeFromName(name).None? ==> r == Err(UnidentifiedScheme))
      && (SchemeFromName(name).Some? && SchemeFromName(name).value !in factories ==> r == Err(FactoryNotFound))
  {
    var name :- GetString(o, "scheme");
    var keydata :- GetObject(o, "keydata");
    var scheme :- ResolveScheme(factories, name);
    Ok(KeyRequestData(scheme, keydata))
  }

  /** Key request data with a registered scheme survives encoding and parsing. */
  lemma KeyRequestRoundTrip(factories: set<KeyxScheme>, r: KeyRequestData)
    requires r.scheme in factories
    ensures ParseKeyRequestData(factories, EncodeKeyRequestData(r)) == Ok(r)
  {
    assert SchemeFromName(SchemeName(r.scheme)) == Some(r.scheme);
  }

  function EncodeKeyResponseData(r: KeyResponseData): Object {
    map[
      "mastertoken" := Obj(EncodeMasterToken(r.masterToken)),
      "scheme" := Str(SchemeName(r.scheme)),
      "keydata" := Obj(r.keydata)]
  }

  /**
   * Parses key response data: the three fields, then the master token (whose
   * own parse errors propagate unchanged), then the scheme.
   */
  function ParseKeyResponseData(factories: set<KeyxScheme>, o: Object): (r: Result<KeyResponseData>)
    ensures "mastertoken" !in o || "scheme" !in o || "keydata" !in o ==> r == Err(ParseError)
    ensures r.Ok? ==>
      && r.value.scheme in factories
      && "mastertoken" in o && o["mastertoken"].Obj?
      && ParseMasterToken(o["mastertoken"].fields) == Ok(r.value.masterToken)
    ensures "mastertoken" in o && o["mastertoken"].Obj? && ParseMasterToken(o["mastertoken"].fields).Err? ==>
      r == Err(ParseError)
    ensures "mastertoken" in o && o["mastertoken"].Obj? && ParseMasterToken(o["mastertoken"].fields).Ok? &&
            "keydata" in o && o["keydata"].Obj? && "scheme" in o && o["scheme"].Str? ==>
      var name := o["scheme"].s;
      && (SchemeFromName(name).None? ==> r == Err(UnidentifiedScheme))
      && (SchemeFromName(name).Some? && SchemeFromName(name).value !in factories ==> r == Err(FactoryNotFound))
  {
    var mto :- GetObject(o, "mastertoken");
    var name :- GetString(o, "scheme");
    var keydata :- GetObject(o, "keydata");
    var mt :- ParseMasterToken(mto);
    var scheme :- ResolveScheme(factories, name);
    Ok(KeyResponseData(mt, scheme, keydata))
  }

  /** Key response data carrying a decrypted master token and a registered scheme survives encoding and parsing. */
  lemma KeyResponseRoundTrip(factories: set<KeyxScheme>, r: KeyResponseData)
    requires r.scheme in factories && r.masterToken.decrypted
    ensures ParseKeyResponseData(factories, EncodeKeyResponseData(r)) == Ok(r)
  {
    MasterTokenRoundTrip(r.masterToken);
    assert SchemeFromName(SchemeName(r.scheme)) == Some(r.scheme);
  }

  /** An empty object in the master token field is a parse error. */
  lemma EmptyMasterTokenRejected(factories: set<KeyxScheme>, o: Object)
    requires "mastertoken" in o && o["mastertoken"] == Obj(map[])
    ensures ParseKeyResponseData(factories, o) == Err(ParseError)
  {
    EmptyObjectIsNotMasterToken();
  }

  /** A key exchange factory; `id` tells apart several factories registered for one scheme. */
  datatype KeyxFactory = KeyxFactory(scheme: KeyxScheme, id: nat)
}

=== FILE: message_builder.dfy ===
/*******************************************************************************
 *  The message builder: message ID arithmetic, the three header flags and the
 *  invariant they keep, the non-replayable ID of the header, the name-keyed
 *  service token map with its binding checks, and the order in which key
 *  exchange is attempted when a master token has to be issued.
 *******************************************************************************/

module MessageBuilder {
  import opened MslBase
  import opened Tokens
  import opened KeyExchange
  import opened UserAuth
  import MockTokenFactory

  // ---------------------------------------------------------------------------
  // Message IDs
  // ---------------------------------------------------------------------------

  /** The message ID after `id`, wrapping past MAX_LONG_VALUE; IDs outside the legal range are an internal error. */
  function IncrementMessageId(lim: Limits, id: int): (r: Result<int>)
    ensures r.Err? <==> !lim.InRange(id)
    ensures r.Err? ==> r.fault == Internal
    ensures r.Ok? ==> lim.InRange(r.value)
    ensures r.Ok? ==> r.value == (if id == lim.maxLong then 0 else id + 1)
  {
    if id < 0 || id > lim.maxLong then Err(Internal)
    else if id == lim.maxLong then Ok(0)
    else Ok(id + 1)
  }

  /** The message ID before `id`, wrapping below zero; IDs outside the legal range are an internal error. */
  function DecrementMessageId(lim: Limits, id: int): (r: Result<int>)
    ensures r.Err? <==> !lim.InRange(id)
    ensures r.Err? ==> r.fault == Internal
    ensures r.Ok? ==> lim.InRange(r.value)
    ensures r.Ok? ==> r.value == (if id == 0 then lim.maxLong else id - 1)
  {
    if id < 0 || id > lim.maxLong then Err(Internal)
    else if id == 0 then Ok(lim.maxLong)
    else Ok(id - 1)
  }

  /** Incrementing and decrementing undo each other on every legal message ID. */
  lemma IncrementDecrementInverse(lim: Limits, id: int)
    requires lim.Valid() && lim.InRange(id)
    ensures DecrementMessageId(lim, IncrementMessageId(lim, id).value) == Ok(id)
    ensures IncrementMessageId(lim, DecrementMessageId(lim, id).value) == Ok(id)
  {
  }

  /** Message IDs and master token sequence numbers wrap the same way. */
  lemma IncrementMatchesSequenceRenewal(lim: Limits, id: int)
    requires lim.InRange(id)
    ensures IncrementMessageId(lim, id) == Ok(MockTokenFactory.NextSequenceNumber(lim, id))
  {
  }

  /**
   * The message ID of an error response: one more than the request's when
   * the request's ID is known (anything but -1), otherwise the random draw,
   * which lies in [0, MAX_LONG_VALUE).
   */
  function ErrorResponseMessageId(lim: Limits, requestMessageId: int, randomDraw: int): (r: Result<int>)
    requires 0 <= randomDraw < lim.maxLong
    ensures requestMessageId == -1 ==> r == Ok(randomDraw)
    ensures requestMessageId != -1 ==> r == IncrementMessageId(lim, requestMessageId)
    ensures r.Ok? ==> lim.InRange(r.value)
    ensures r.Err? <==> requestMessageId != -1 && !lim.InRange(requestMessageId)
  {
    if requestMessageId != -1 then IncrementMessageId(lim, requestMessageId) else Ok(randomDraw)
  }

  // ---------------------------------------------------------------------------
  // Header flags
  // ---------------------------------------------------------------------------

  datatype Flags = Flags(nonReplayable: bool, renewable: bool, handshake: bool)

  /** A handshake message is renewable and never non-replayable. */
  predicate Consistent(f: Flags) {
    f.handshake ==> f.renewable && !f.nonReplayable
  }

  function SetNonReplayable(f: Flags, nonReplayable: bool): (r: Flags)
    ensures r.nonReplayable == nonReplayable && r.renewable == f.renewable
    ensures r.handshake == (f.handshake && !nonReplayable)
    ensures Consistent(f) ==> Consistent(r)
  {
    if nonReplayable then Flags(true, f.renewable, false) else f.(nonReplayable := false)
  }

  function SetRenewable(f: Flags, renewable: bool): (r: Flags)
    ensures r.renewable == renewable && r.nonReplayable == f.nonReplayable
    ensures r.handshake == (f.handshake && renewable)
    ensures Consistent(f) ==> Consistent(r)
  {
    if renewable then f.(renewable := true) else Flags(f.nonReplayable, false, false)
  }

  function SetHandshake(f: Flags, handshake: bool): (r: Flags)
    ensures r.handshake == handshake
    ensures handshake ==> Consistent(r) && r.renewable && !r.nonReplayable
    ensures !handshake ==> r.renewable == f.renewable && r.nonReplayable == f.nonReplayable
    ensures Consistent(r)
  {
    if handshake then Flags(false, true, true) else f.(handshake := false)
  }

  /** A call of one of the three flag setters. */
  datatype FlagOp = NonReplayableOp(v: bool) | RenewableOp(v: bool) | HandshakeOp(v: bool)

  function ApplyFlagOps(f: Flags, ops: seq<FlagOp>): Flags
    decreases |ops|
  {
    if |ops| == 0 then f
    else
      var g := match ops[0]
        case NonReplayableOp(v) => SetNonReplayable(f, v)
        case RenewableOp(v) => SetRenewable(f, v)
        case HandshakeOp(v) => SetHandshake(f, v);
      ApplyFlagOps(g, ops[1..])
  }

  /** No sequence of setter calls can break the flag invariant. */
  lemma {:induction false} FlagOpsKeepConsistent(f: Flags, ops: seq<FlagOp>)
    requires Consistent(f)
    ensures Consistent(ApplyFlagOps(f, ops))
    decreases |ops|
  {
    if |ops| > 0 {
      var g := match ops[0]
        case NonReplayableOp(v) => SetNonReplayable(f, v)
        case RenewableOp(v) => SetRenewable(f, v)
        case HandshakeOp(v) => SetHandshake(f, v);
      FlagOpsKeepConsistent(g, ops[1..]);
    }
  }

  // ---------------------------------------------------------------------------
  // Service tokens and the builder
  // ---------------------------------------------------------------------------

  /**
   * A service token: its name, its data and the serial numbers of the master
   * token and user ID token it is bound to, if any.
   */
  datatype ServiceToken = ServiceToken(
    name: string,
    data: seq<byte>,
    mtSerialNumber: Option<int>,
    uitSerialNumber: Option<int>)
  {
    predicate MasterTokenBound() { mtSerialNumber.Some? }
    predicate UserIdTokenBound() { uitSerialNumber.Some? }

    predicate BoundToMasterToken(mt: Option<MasterToken>) {
      mt.Some? && mtSerialNumber == Some(mt.value.serialNumber)
    }

    predicate BoundToUserIdToken(uit: Option<UserIdToken>) {
      uit.Some? && uitSerialNumber == Some(uit.value.serialNumber)
    }
  }

  /** A service token whose bindings are satisfied by the given master token and user ID token. */
  predicate Compatible(t: ServiceToken, mt: Option<MasterToken>, uit: Option<UserIdToken>) {
    (t.MasterTokenBound() ==> t.BoundToMasterToken(mt)) && (t.UserIdTokenBound() ==> t.BoundToUserIdToken(uit))
  }

  /** Every token is filed under its own name. */
  predicate KeyedByName(tokens: map<string, ServiceToken>) {
    forall n :: n in tokens ==> tokens[n].name == n
  }

  /**
   * The builder state this model tracks. `keyxMasterToken` is present exactly
   * when the builder carries key exchange data, and is the master token of its
   * key response.
   */
  datatype Builder = Builder(
    messageId: int,
    flags: Flags,
    masterToken: Option<MasterToken>,
    userIdToken: Option<UserIdToken>,
    keyxMasterToken: Option<MasterToken>,
    peerToPeer: bool,
    serviceTokens: map<string, ServiceToken>,
    userAuthData: Option<UserAuthData>)

  /** The master token service tokens must be bound to: the key exchange one in trusted network mode, otherwise the builder's. */
  function ServiceMasterToken(b: Builder): Option<MasterToken> {
    if b.keyxMasterToken.Some? && !b.peerToPeer then b.keyxMasterToken else b.masterToken
  }

  /** The builder's service token map is keyed by name and every token's bindings hold. */
  predicate WellBound(b: Builder) {
    && KeyedByName(b.serviceTokens)
    && forall n :: n in b.serviceTokens ==> Compatible(b.serviceTokens[n], ServiceMasterToken(b), b.userIdToken)
  }

  /**
   * A request builder: the message ID must be legal; the service tokens are
   * the ones the MSL store holds for the master token and user ID token
   * (`stored`, already keyed by name). The store refuses a user ID token that
   * is not bound to the master token, and createRequest does not check this
   * beforehand, so the store's exception reaches the caller.
   */
  function CreateRequest(
    lim: Limits, messageId: int, mt: Option<MasterToken>, uit: Option<UserIdToken>,
    peerToPeer: bool, stored: map<string, ServiceToken>): (r: Result<Builder>)
    ensures r.Err? <==> !lim.InRange(messageId) || (uit.Some? && !BoundTo(uit.value, mt))
    ensures !lim.InRange(messageId) ==> r == Err(Internal)
    ensures (lim.InRange(messageId) && uit.Some? && !BoundTo(uit.value, mt)) ==>
      r == Err(Msl(GeneralKind, UserIdTokenMasterTokenMismatch))
    ensures r.Ok? ==>
      && r.value.messageId == messageId && r.value.masterToken == mt && r.value.userIdToken == uit
      && r.value.serviceTokens == stored && r.value.keyxMasterToken.None?
      && r.value.peerToPeer == peerToPeer && r.value.userAuthData.None?
      && r.value.flags == Flags(false, false, false)
  {
    if messageId < 0 || messageId > lim.maxLong then Err(Internal)
    else if uit.Some? && !BoundTo(uit.value, mt) then Err(Msl(GeneralKind, UserIdTokenMasterTokenMismatch))
    else Ok(Builder(messageId, Flags(false, false, false), mt, uit, None, peerToPeer, stored, None))
  }

  /** A fresh request builder is well bound whenever the store's tokens fit its tokens. */
  lemma CreateRequestWellBound(
    lim: Limits, messageId: int, mt: Option<MasterToken>, uit: Option<UserIdToken>,
    peerToPeer: bool, stored: map<string, ServiceToken>)
    requires KeyedByName(stored)
    requires forall n :: n in stored ==> Compatible(stored[n], mt, uit)
    requires CreateRequest(lim, messageId, mt, uit, peerToPeer, stored).Ok?
    ensures WellBound(CreateRequest(lim, messageId, mt, uit, peerToPeer, stored).value)
    ensures Consistent(CreateRequest(lim, messageId, mt, uit, peerToPeer, stored).value.flags)
  {
  }

  /**
   * The non-replayable ID written into the header: -1 unless the message is
   * non-replayable, in which case the store's next ID for the master token,
   * and a non-replayable message needs a master token.
   */
  function HeaderNonReplayableId(b: Builder, storeNonReplayableId: int): (r: Result<int>)
    ensures !b.flags.nonReplayable ==> r == Ok(-1)
    ensures b.flags.nonReplayable && b.masterToken.None? ==>
      r == Err(Msl(MessageKind, NonReplayableMessageRequiresMasterToken))
    ensures b.flags.nonReplayable && b.masterToken.Some? ==> r == Ok(storeNonReplayableId)
  {
    if b.flags.nonReplayable then
      if b.masterToken.None? then Err(Msl(MessageKind, NonReplayableMessageRequiresMasterToken))
      else Ok(storeNonReplayableId)
    else Ok(-1)
  }

  /** A handshake message never carries a non-replayable ID, whatever was set before. */
  lemma HandshakeHeaderIsReplayable(b: Builder, storeNonReplayableId: int)
    ensures HeaderNonReplayableId(b.(flags := SetHandshake(b.flags, true)), storeNonReplayableId) == Ok(-1)
  {
  }

  const MasterTokenMismatch: Fault := Msl(MessageKind, ServiceTokenMasterTokenMismatch)
  const UserIdTokenMismatch: Fault := Msl(MessageKind, ServiceTokenUserIdTokenMismatch)

  /** Adds a service token, replacing any of the same name, after checking its bindings. */
  function AddServiceToken(b: Builder, t: ServiceToken): (r: Result<Builder>)
    ensures t.MasterTokenBound() && !t.BoundToMasterToken(ServiceMasterToken(b)) ==> r == Err(MasterTokenMismatch)
    ensures Compatible(t, ServiceMasterToken(b), None) ==>
      (t.UserIdTokenBound() && !t.BoundToUserIdToken(b.userIdToken) ==> r == Err(UserIdTokenMismatch))
    ensures r.Ok? <==> Compatible(t, ServiceMasterToken(b), b.userIdToken)
    ensures r.Ok? ==> r.value == b.(serviceTokens := b.serviceTokens[t.name := t])
    ensures r.Ok? && WellBound(b) ==> WellBound(r.value)
  {
    if t.MasterTokenBound() && !t.BoundToMasterToken(ServiceMasterToken(b)) then Err(MasterTokenMismatch)
    else if t.UserIdTokenBound() && !t.BoundToUserIdToken(b.userIdToken) then Err(UserIdTokenMismatch)
    else Ok(b.(serviceTokens := b.serviceTokens[t.name := t]))
  }

  /** Adds a service token only if none of that name is present. */
  function AddServiceTokenIfAbsent(b: Builder, t: ServiceToken): (r: Result<Builder>)
    ensures t.name in b.serviceTokens ==> r == Ok(b)
    ensures t.name !in b.serviceTokens ==> r == AddServiceToken(b, t)
    ensures r.Ok? && WellBound(b) ==> WellBound(r.value)
  {
    if t.name in b.serviceTokens then Ok(b) else AddServiceToken(b, t)
  }

  /** Drops a service token from the message without deleting it at the remote entity. */
  function ExcludeServiceToken(b: Builder, name: string): (r: Builder)
    ensures name !in r.serviceTokens
    ensures forall n :: n != name ==> (n in r.serviceTokens <==> n in b.serviceTokens)
    ensures forall n :: n in r.serviceTokens ==> r.serviceTokens[n] == b.serviceTokens[n]
    ensures WellBound(b) ==> WellBound(r)
    ensures r.(serviceTokens := b.serviceTokens) == b
  {
    b.(serviceTokens := b.serviceTokens - {name})
  }

  /**
   * Replaces a present service token with an empty one of the same name,
   * bound to the builder's current tokens where the original was bound,
   * which deletes it at the remote entity. Any failure becomes an internal
   * error.
   */
  function DeleteServiceToken(b: Builder, name: string): (r: Result<Builder>)
    ensures name !in b.serviceTokens ==> r == Ok(b)
    ensures r.Err? ==> r.fault == Internal
    ensures r.Ok? && name in b.serviceTokens ==>
      && name in r.value.serviceTokens
      && r.value.serviceTokens[name].data == []
      && r.value.serviceTokens[name].MasterTokenBound() ==
           (b.serviceTokens[name].MasterTokenBound() && b.masterToken.Some?)
      && r.value.serviceTokens[name].UserIdTokenBound() ==
           (b.serviceTokens[name].UserIdTokenBound() && b.userIdToken.Some?)
      && (forall n :: n != name ==> (n in r.value.serviceTokens <==> n in b.serviceTokens))
    ensures r.Ok? && name in b.serviceTokens ==>
      forall n :: n != name && n in b.serviceTokens ==> r.value.serviceTokens[n] == b.serviceTokens[n]
    ensures r.Ok? && name in b.serviceTokens ==>
      var original := b.serviceTokens[name];
      r.value == b.(serviceTokens := b.serviceTokens[name := ServiceToken(name, [],
        if original.MasterTokenBound() && b.masterToken.Some? then Some(b.masterToken.value.serialNumber) else None,
        if original.UserIdTokenBound() && b.userIdToken.Some? then Some(b.userIdToken.value.serialNumber) else None)])
  {
    if name !in b.serviceTokens then Ok(b)
    else
      var original := b.serviceTokens[name];
      var mtSerial := if original.MasterTokenBound() && b.masterToken.Some? then Some(b.masterToken.value.serialNumber) else None;
      var uitSerial := if original.UserIdTokenBound() && b.userIdToken.Some? then Some(b.userIdToken.value.serialNumber) else None;
      match AddServiceToken(b, ServiceToken(name, [], mtSerial, uitSerial))
      case Ok(b') => Ok(b')
      case Err(_) => Err(Internal)
  }

  /**
   * Outside trusted-network key exchange, deleting a token of a well-bound
   * builder always succeeds: the empty replacement inherits bindings the
   * original already satisfied.
   */
  lemma DeleteSucceedsWhenWellBound(b: Builder, name: string)
    requires WellBound(b) && name in b.serviceTokens
    requires b.keyxMasterToken.None? || b.peerToPeer
    ensures DeleteServiceToken(b, name).Ok?
    ensures WellBound(DeleteServiceToken(b, name).value)
  {
  }

  /**
   * Sets the master token and user ID token. The user ID token must be bound
   * to the master token, and a trusted-network server holding key exchange
   * data may not do this at all. Service tokens that would no longer be bound
   * are removed and the stored ones added over the rest; a user ID token
   * makes user authentication data unnecessary.
   */
  function SetAuthTokens(
    b: Builder, mt: Option<MasterToken>, uit: Option<UserIdToken>, stored: map<string, ServiceToken>): (r: Result<Builder>)
    ensures uit.Some? && !BoundTo(uit.value, mt) ==> r == Err(Internal)
    ensures b.keyxMasterToken.Some? && !b.peerToPeer ==> r == Err(Internal)
    ensures r.Ok? ==>
      && r.value.masterToken == mt && r.value.userIdToken == uit
      && r.value.userAuthData == (if uit.Some? then None else b.userAuthData)
      && r.value.flags == b.flags && r.value.messageId == b.messageId
    ensures r.Ok? ==> r.value.keyxMasterToken == b.keyxMasterToken && r.value.peerToPeer == b.peerToPeer
    ensures r.Ok? ==>
      r.value == b.(serviceTokens := r.value.serviceTokens, masterToken := mt, userIdToken := uit,
                    userAuthData := r.value.userAuthData)
    ensures r.Ok? ==> forall n ::
      n in r.value.serviceTokens <==>
        n in stored || (n in b.serviceTokens && Compatible(b.serviceTokens[n], mt, uit))
    ensures r.Ok? ==> forall n :: n in r.value.serviceTokens ==>
      r.value.serviceTokens[n] == if n in stored then stored[n] else b.serviceTokens[n]
  {
    if uit.Some? && !BoundTo(uit.value, mt) then Err(Internal)
    else if b.keyxMasterToken.Some? && !b.peerToPeer then Err(Internal)
    else
      var kept := map n | n in b.serviceTokens && Compatible(b.serviceTokens[n], mt, uit) :: b.serviceTokens[n];
      Ok(b.(serviceTokens := kept + stored, masterToken := mt, userIdToken := uit,
            userAuthData := if uit.Some? then None else b.userAuthData))
  }

  /** Setting the tokens, with stored tokens that fit them, leaves a well-bound builder. */
  lemma SetAuthTokensWellBound(
    b: Builder, mt: Option<MasterToken>, uit: Option<UserIdToken>, stored: map<string, ServiceToken>)
    requires KeyedByName(b.serviceTokens) && KeyedByName(stored)
    requires forall n :: n in stored ==> Compatible(stored[n], mt, uit)
    requires SetAuthTokens(b, mt, uit, stored).Ok?
    ensures WellBound(SetAuthTokens(b, mt, uit, stored).value)
  {
  }

  // ---------------------------------------------------------------------------
  // Key exchange order
  // ---------------------------------------------------------------------------

  /** The failures the key exchange loop records and moves past; any other failure ends it at once. */
  predicate Recoverable(f: Fault) {
    f.Msl? && f.kind in {CryptoKind, KeyExchangeKind, EncodingKind, MasterTokenKind, EntityAuthKind}
  }

  /** A factory paired with a key request of its scheme. */
  type Attempt = (KeyxFactory, KeyRequestData)

  /** The requests a factory can serve, as attempts, in request order. */
  function FactoryAttempts(f: KeyxFactory, requests: seq<KeyRequestData>): seq<Attempt>
    decreases |requests|
  {
    if |requests| == 0 then []
    else (if f.scheme == requests[0].scheme then [(f, requests[0])] else []) + FactoryAttempts(f, requests[1..])
  }

  /** All matching (factory, request) pairs, factory by factory, each factory's in request order. */
  function AllAttempts(factories: seq<KeyxFactory>, requests: seq<KeyRequestData>): seq<Attempt>
    decreases |factories|
  {
    if |factories| == 0 then [] else FactoryAttempts(factories[0], requests) + AllAttempts(factories[1..], requests)
  }

  /**
   * Runs the attempts in order: the first success wins, an unrecoverable
   * failure ends the run, a recoverable one is remembered. When the attempts
   * run out the last remembered failure is rethrown, or, if nothing was tried,
   * no factory was found.
   */
  function RunAttempts<T>(
    attempts: seq<Attempt>, generate: (KeyxFactory, KeyRequestData) -> Result<T>, last: Option<Fault>): Result<T>
    decreases |attempts|
  {
    if |attempts| == 0 then
      if last.Some? then Err(last.value) else Err(FactoryNotFound)
    else
      var outcome := generate(attempts[0].0, attempts[0].1);
      if outcome.Ok? || !Recoverable(outcome.fault) then outcome
      else RunAttempts(attempts[1..], generate, Some(outcome.fault))
  }

  /**
   * issueMasterToken: tries every factory against every key request of its
   * scheme, factory by factory. The end-of-requests checks in the source
   * never fire (the request iterator has not advanced yet), so every
   * recoverable failure is remembered and the loop goes on.
   */
  method IssueMasterToken<T>(
    factories: seq<KeyxFactory>, requests: seq<KeyRequestData>,
    generate: (KeyxFactory, KeyRequestData) -> Result<T>) returns (r: Result<T>)
    ensures r == RunAttempts(AllAttempts(factories, requests), generate, None)
  {
    ghost var spec := RunAttempts(AllAttempts(factories, requests), generate, None);
    var last: Option<Fault> := None;
    var i := 0;
    while i < |factories|
      invariant 0 <= i <= |factories|
      invariant RunAttempts(AllAttempts(factories[i..], requests), generate, last) == spec
    {
      var factory := factories[i];
      ghost var rest := AllAttempts(factories[i + 1..], requests);
      AllAttemptsNext(factories, requests, i);
      var j := 0;
      while j < |requests|
        invariant 0 <= j <= |requests|
        invariant RunAttempts(FactoryAttempts(factory, requests[j..]) + rest, generate, last) == spec
      {
        var request := requests[j];
        ghost var tail := FactoryAttempts(factory, requests[j + 1..]) + rest;
        FactoryAttemptsNext(factory, requests, j, rest);
        if factory.scheme == request.scheme {
          RunAttemptsCons((factory, request), tail, generate, last);
          var outcome := generate(factory, request);
          if outcome.Ok? || !Recoverable(outcome.fault) {
            return outcome;
          }
          last := Some(outcome.fault);
        } else {
          assert [] + tail == tail;
        }
        j := j + 1;
      }
      assert requests[|requests|..] == [];
      assert FactoryAttempts(factory, requests[|requests|..]) + rest == rest;
      i := i + 1;
    }
    if last.Some? {
      return Err(last.value);
    }
    return Err(FactoryNotFound);
  }

  /** The attempts from factory `i` on: its own, then those of the factories after it. */
  lemma AllAttemptsNext(factories: seq<KeyxFactory>, requests: seq<KeyRequestData>, i: nat)
    requires i < |factories|
    ensures AllAttempts(factories[i..], requests)
      == FactoryAttempts(factories[i], requests[0..]) + AllAttempts(factories[i + 1..], requests)
  {
    assert factories[i..][1..] == factories[i + 1..];
    assert requests[0..] == requests;
  }

  /** One factory's attempts from request `j` on: the pair for request `j` if the schemes agree, then the rest. */
  lemma FactoryAttemptsNext(f: KeyxFactory, requests: seq<KeyRequestData>, j: nat, rest: seq<Attempt>)
    requires j < |requests|
    ensures FactoryAttempts(f, requests[j..]) + rest
      == (if f.scheme == requests[j].scheme then [(f, requests[j])] else []) + (FactoryAttempts(f, requests[j + 1..]) + rest)
  {
    assert requests[j..][1..] == requests[j + 1..];
  }

  /** A run starts with its first attempt. */
  lemma RunAttemptsCons<T>(a: Attempt, tail: seq<Attempt>, generate: (KeyxFactory, KeyRequestData) -> Result<T>, last: Option<Fault>)
    ensures var outcome := generate(a.0, a.1);
      RunAttempts([a] + tail, generate, last)
      == if outcome.Ok? || !Recoverable(outcome.fault) then outcome else RunAttempts(tail, generate, Some(outcome.fault))
  {
    assert ([a] + tail)[1..] == tail;
  }

  /** The attempts are exactly the (factory, request) pairs whose schemes agree. */
  lemma {:induction false} AttemptsAreMatchingPairs(factories: seq<KeyxFactory>, requests: seq<KeyRequestData>, p: Attempt)
    ensures p in AllAttempts(factories, requests) <==>
      p.0 in factories && p.1 in requests && p.0.scheme == p.1.scheme
    decreases |factories|
  {
    if |factories| > 0 {
      FactoryAttemptsMatching(factories[0], requests, p);
      AttemptsAreMatchingPairs(factories[1..], requests, p);
      assert factories == [factories[0]] + factories[1..];
    }
  }

  lemma {:induction false} FactoryAttemptsMatching(f: KeyxFactory, requests: seq<KeyRequestData>, p: Attempt)
    ensures p in FactoryAttempts(f, requests) <==> p.0 == f && p.1 in requests && f.scheme == p.1.scheme
    decreases |requests|
  {
    if |requests| > 0 {
      FactoryAttemptsMatching(f, requests[1..], p);
      assert requests == [requests[0]] + requests[1..];
    }
  }

  /** With no factory for any requested scheme, key exchange fails with factory-not-found. */
  lemma NoMatchingFactory<T>(
    factories: seq<KeyxFactory>, requests: seq<KeyRequestData>, generate: (KeyxFactory, KeyRequestData) -> Result<T>)
    requires forall f, q :: f in factories && q in requests ==> f.scheme != q.scheme
    ensures RunAttempts(AllAttempts(factories, requests), generate, None) == Err(FactoryNotFound)
  {
    var attempts := AllAttempts(factories, requests);
    if |attempts| > 0 {
      AttemptsAreMatchingPairs(factories, requests, attempts[0]);
    }
  }

  /** Attempt `k` yields `outcome` and every attempt before it failed recoverably. */
  ghost predicate FirstWorking<T>(
    attempts: seq<Attempt>, generate: (KeyxFactory, KeyRequestData) -> Result<T>, k: int, outcome: Result<T>)
  {
    && 0 <= k < |attempts|
    && generate(attempts[k].0, attempts[k].1) == outcome
    && forall j :: 0 <= j < k ==>
         generate(attempts[j].0, attempts[j].1).Err? && Recoverable(generate(attempts[j].0, attempts[j].1).fault)
  }

  /**
   * A success is the outcome of some attempt, and every attempt before it
   * failed recoverably.
   */
  lemma {:induction false} SuccessIsFirstWorkingAttempt<T>(
    attempts: seq<Attempt>, generate: (KeyxFactory, KeyRequestData) -> Result<T>, last: Option<Fault>)
    requires RunAttempts(attempts, generate, last).Ok?
    ensures exists k :: FirstWorking(attempts, generate, k, RunAttempts(attempts, generate, last))
    decreases |attempts|
  {
    var outcome := generate(attempts[0].0, attempts[0].1);
    if outcome.Ok? {
      assert FirstWorking(attempts, generate, 0, outcome);
    } else {
      var tail := attempts[1..];
      SuccessIsFirstWorkingAttempt(tail, generate, Some(outcome.fault));
      var k :| FirstWorking(tail, generate, k, RunAttempts(tail, generate, Some(outcome.fault)));
      assert attempts[k + 1] == tail[k];
      forall j | 0 <= j < k + 1
        ensures generate(attempts[j].0, attempts[j].1).Err? && Recoverable(generate(attempts[j].0, attempts[j].1).fault)
      {
        if j > 0 {
          assert attempts[j] == tail[j - 1];
        }
      }
      assert FirstWorking(attempts, generate, k + 1, RunAttempts(attempts, generate, last));
    }
  }

  /**
   * When every attempt fails recoverably, the failure reported is the last
   * attempt's, not the first's.
   */
  lemma {:induction false} AllFailLastRethrown<T>(
    attempts: seq<Attempt>, generate: (KeyxFactory, KeyRequestData) -> Result<T>, last: Option<Fault>)
    requires 0 < |attempts|
    requires forall j :: 0 <= j < |attempts| ==>
      generate(attempts[j].0, attempts[j].1).Err? && Recoverable(generate(attempts[j].0, attempts[j].1).fault)
    ensures RunAttempts(attempts, generate, last) == generate(attempts[|attempts| - 1].0, attempts[|attempts| - 1].1)
    decreases |attempts|
  {
    var outcome := generate(attempts[0].0, attempts[0].1);
    var tail := attempts[1..];
    if |tail| > 0 {
      forall j | 0 <= j < |tail|
        ensures generate(tail[j].0, tail[j].1).Err? && Recoverable(generate(tail[j].0, tail[j].1).fault)
      {
        assert tail[j] == attempts[j + 1];
      }
      AllFailLastRethrown(tail, generate, Some(outcome.fault));
      assert tail[|tail| - 1] == attempts[|attempts| - 1];
    }
  }
}

=== FILE: msl_base.dfy ===
/*******************************************************************************
 *  Shared vocabulary of the MSL core model: bytes, optional values, the
 *  protocol's error taxonomy, failure-compatible results and the protocol-wide
 *  numeric limits.
 *******************************************************************************/

module MslBase {

  /** An octet, as carried in byte arrays on the wire. */
  newtype byte = x: int | 0 <= x < 256

  /** Bounds of a signed 64-bit integer (the width of the C++ `int64_t` fields). */
  const Int64Min: int := -0x8000_0000_0000_0000
  const Int64Max: int := 0x7FFF_FFFF_FFFF_FFFF

  /** 2^64: the modulus of two's-complement 64-bit arithmetic. */
  const Two64: int := 0x1_0000_0000_0000_0000

  /** Non-replayable IDs further than this ahead of the largest accepted one are unrecoverable. */
  const NonReplayableIdWindow: int := 65536

  /**
   * The two protocol constants this core reads but does not define:
   * MAX_LONG_VALUE (largest message ID, sequence number or non-replayable ID)
   * and MAX_MESSAGES (the number of messages a client may have in flight).
   */
  datatype Limits = Limits(maxLong: int, maxMessages: int) {

    /** The constants are positive, the ID space is wider than the replay window and fits in 64 bits. */
    predicate Valid() {
      NonReplayableIdWindow < maxLong <= Int64Max && 0 <= maxMessages
    }

    /** How far behind the largest accepted non-replayable ID a late message may still be caught up. */
    function CatchupWindow(): int {
      maxMessages / 2
    }

    /** True if `n` is a legal message ID, sequence number or non-replayable ID. */
    predicate InRange(n: int) {
      0 <= n <= maxLong
    }
  }

  /** The conventional Some/None datatype, used in place of a null reference. */
  datatype Option<+T> = None | Some(value: T) {

    predicate IsFailure() {
      None?
    }

    function PropagateFailure<U>(): Option<U>
      requires None?
    {
      None
    }

    function Extract(): T
      requires Some?
    {
      value
    }
  }

  /** The exception class an MSL error is thrown as. */
  datatype Kind =
    | CryptoKind
    | EncodingKind
    | EntityAuthKind
    | UserAuthKind
    | KeyExchangeKind
    | MasterTokenKind
    | UserIdTokenKind
    | MessageKind
    | GeneralKind

  /** The MSL error codes this core raises or returns. */
  datatype Code =
    | MslParseError
    | MasterTokenUntrusted
    | MasterTokenIdentityRevoked
    | NonReplayableIdOutOfRange
    | MessageReplayed
    | MessageReplayedUnrecoverable
    | UserIdTokenNotDecrypted
    | UserIdTokenRevoked
    | NonReplayableMessageRequiresMasterToken
    | ServiceTokenMasterTokenMismatch
    | ServiceTokenUserIdTokenMismatch
    | KeyxFactoryNotFound
    | UnidentifiedKeyxScheme
    | UnidentifiedEntityAuthScheme
    | EntityAuthFactoryNotFound
    | EntityAuthMasterTokenInvalid
    | EntityAuthSignatureInvalid
    | EntityAuthCiphertextInvalid
    | EntityRevoked
    | IncorrectEntityAuthData
    | EccPrivateKeyNotFound
    | EccPublicKeyNotFound
    | RsaPrivateKeyNotFound
    | RsaPublicKeyNotFound
    | EmailPasswordBlank
    | EmailPasswordIncorrect
    | UserIdTokenUserAuthDataMismatch
    | UserIdTokenMasterTokenMismatch
    | CompressionError
    | UncompressionError

  /**
   * A thrown error: an MSL exception of some kind carrying an error code, or one
   * of the code-less exceptions (internal error, I/O error, encoder error).
   */
  datatype Fault =
    | Msl(kind: Kind, code: Code)
    | Internal
    | IoError
    | EncoderError

  /** The outcome of an operation that may throw. */
  datatype Result<+T> = Ok(value: T) | Err(fault: Fault) {

    predicate IsFailure() {
      Err?
    }

    function PropagateFailure<U>(): Result<U>
      requires Err?
    {
      Err(fault)
    }

    function Extract(): T
      requires Ok?
    {
      value
    }
  }
}

=== FILE: msl_utils.dfy ===
/*******************************************************************************
 *  Small utilities: the power-of-two test and the masking it enables when a
 *  random message ID is drawn, case-insensitive string comparison, and the
 *  error mapping of compression.
 *******************************************************************************/

module MslUtils {
  import opened MslBase

  function Pow2(k: nat): (r: nat)
    ensures r >= 1
  {
    if k == 0 then 1 else 2 * Pow2(k - 1)
  }

  /** Bitwise AND of two non-negative integers, built from the least significant bit up. */
  function And(a: nat, b: nat): nat
    decreases a
  {
    if a == 0 || b == 0 then 0
    else 2 * And(a / 2, b / 2) + (if a % 2 == 1 && b % 2 == 1 then 1 else 0)
  }

  /** The bits of `a` and of `b` both bound their AND. */
  lemma {:induction false} AndBound(a: nat, b: nat)
    ensures And(a, b) <= a && And(a, b) <= b
    decreases a
  {
    if a != 0 && b != 0 {
      AndBound(a / 2, b / 2);
    }
  }

  lemma {:induction false} AndSelf(a: nat)
    ensures And(a, a) == a
    decreases a
  {
    if a != 0 {
      AndSelf(a / 2);
    }
  }

  /** Masking with 2^k - 1 keeps exactly the low k bits. */
  lemma {:induction false} AndLowMask(u: nat, k: nat)
    ensures And(u, Pow2(k) - 1) == u % Pow2(k)
    decreases k
  {
    var q := Pow2(k);
    if k == 0 {
      assert q == 1 && And(u, 0) == 0;
    } else if u == 0 {
      assert And(0, q - 1) == 0;
    } else {
      var p := Pow2(k - 1);
      assert q == 2 * p;
      AndLowMask(u / 2, k - 1);
      LowMaskStep(u, p, q);
    }
  }

  /** The inductive step of AndLowMask, with q = 2p standing for 2^k. */
  lemma LowMaskStep(u: nat, p: nat, q: nat)
    requires u != 0 && p >= 1 && q == 2 * p
    requires And(u / 2, p - 1) == (u / 2) % p
    ensures And(u, q - 1) == u % q
  {
    AndLowMaskStep(u, p, (u / 2) % p);
    DivModSplit(u, p);
  }

  /** One bit of AndLowMask: the mask 2p - 1 keeps the lowest bit of u and, above it, what p - 1 keeps of u / 2. */
  lemma AndLowMaskStep(u: nat, p: nat, low: nat)
    requires u != 0 && p >= 1
    requires And(u / 2, p - 1) == low
    ensures And(u, 2 * p - 1) == 2 * low + u % 2
  {
    MaskHalves(p);
    AndUnfold(u, 2 * p - 1);
  }

  /** 2p - 1 is odd, and halving it leaves p - 1. */
  lemma MaskHalves(p: nat)
    requires p >= 1
    ensures (2 * p - 1) / 2 == p - 1 && (2 * p - 1) % 2 == 1
  {
  }

  /** The recursive case of And. */
  lemma AndUnfold(a: nat, b: nat)
    requires a != 0 && b != 0
    ensures And(a, b) == 2 * And(a / 2, b / 2) + (if a % 2 == 1 && b % 2 == 1 then 1 else 0)
  {
  }

  lemma DivModSplit(u: nat, p: nat)
    requires p >= 1
    ensures u % (2 * p) == 2 * ((u / 2) % p) + u % 2
  {
    var q := u / 2;
    var t := q / p;
    var s := q % p;
    assert u == 2 * p * t + (2 * s + u % 2);
    ModUnique(u, 2 * p, t, 2 * s + u % 2);
  }

  lemma ModUnique(u: nat, d: nat, t: nat, s: nat)
    requires d >= 1 && 0 <= s < d && u == d * t + s
    ensures u % d == s
  {
    var q := u / d;
    assert u == d * q + u % d;
    assert d * (t - q) == u % d - s;
    if t > q {
      MulAtLeast(d, t - q);
    } else if t < q {
      MulAtLeast(d, q - t);
    }
  }

  lemma MulAtLeast(d: nat, m: int)
    requires m >= 1
    ensures d * m >= d
  {
  }

  /** is_power_of_2 on a signed 64-bit value: negatives are not, zero is. */
  function IsPowerOf2(n: int): bool {
    if n < 0 then false
    else if n == 0 then true
    else And(n, n - 1) == 0
  }

  lemma {:induction false} PowerOf2AndPredecessor(k: nat)
    ensures And(Pow2(k), Pow2(k) - 1) == 0
    decreases k
  {
    if k > 0 {
      PowerOf2AndPredecessor(k - 1);
    }
  }

  lemma {:induction false} NotPowerOf2AndPredecessor(n: nat)
    requires n > 0 && forall k: nat :: Pow2(k) != n
    ensures And(n, n - 1) != 0
    decreases n
  {
    assert Pow2(0) == 1;
    if n % 2 == 0 {
      HalfNotPowerOf2(n);
      NotPowerOf2AndPredecessor(n / 2);
      AndPredecessorEven(n);
    } else {
      AndSelf(n / 2);
      AndPredecessorOdd(n);
    }
  }

  /** Half of an even number that is not a power of two is not one either. */
  lemma HalfNotPowerOf2(n: nat)
    requires n > 0 && n % 2 == 0 && forall k: nat :: Pow2(k) != n
    ensures n / 2 > 0 && forall k: nat :: Pow2(k) != n / 2
  {
    forall k: nat ensures Pow2(k) != n / 2 {
      assert Pow2(k + 1) == 2 * Pow2(k);
    }
  }

  lemma AndPredecessorEven(n: nat)
    requires n >= 2 && n % 2 == 0
    ensures And(n, n - 1) == 2 * And(n / 2, n / 2 - 1)
  {
    assert (n - 1) / 2 == n / 2 - 1 && (n - 1) % 2 == 1;
  }

  lemma AndPredecessorOdd(n: nat)
    requires n > 1 && n % 2 == 1
    ensures And(n, n - 1) == 2 * And(n / 2, n / 2)
  {
    assert (n - 1) / 2 == n / 2 && (n - 1) % 2 == 0;
  }

  /** is_power_of_2 holds exactly of zero and the powers of two. */
  lemma IsPowerOf2Correct(n: int)
    ensures IsPowerOf2(n) <==> n == 0 || (n > 0 && exists k: nat :: Pow2(k) == n)
  {
    if n > 0 {
      if exists k: nat :: Pow2(k) == n {
        var k: nat :| Pow2(k) == n;
        PowerOf2AndPredecessor(k);
      } else {
        NotPowerOf2AndPredecessor(n);
      }
    }
  }

  /**
   * One 64-bit random draw as getRandomLong sees it: when MAX_LONG_VALUE is a
   * power of two the two's-complement bits are masked with MAX_LONG_VALUE - 1.
   */
  function Masked(lim: Limits, draw: int): int
    requires lim.Valid()
  {
    if IsPowerOf2(lim.maxLong) then And(draw % Two64, lim.maxLong - 1) else draw
  }

  /** Under the power-of-two mask every draw lands in [0, MAX_LONG_VALUE). */
  lemma MaskedInRange(lim: Limits, draw: int)
    requires lim.Valid() && IsPowerOf2(lim.maxLong)
    ensures 0 <= Masked(lim, draw) < lim.maxLong
  {
    AndBound(draw % Two64, lim.maxLong - 1);
  }

  /**
   * getRandomLong over a finite supply of 64-bit draws: masks each draw when
   * MAX_LONG_VALUE is a power of two, and redraws until a value lies in
   * [0, MAX_LONG_VALUE]. None when the supply runs out first.
   */
  method GetRandomLong(lim: Limits, draws: seq<int>) returns (r: Option<int>, used: nat)
    requires lim.Valid()
    requires forall i :: 0 <= i < |draws| ==> Int64Min <= draws[i] <= Int64Max
    ensures used <= |draws|
    ensures r.Some? ==> lim.InRange(r.value)
    ensures r.Some? ==> 0 < used && r.value == Masked(lim, draws[used - 1])
    ensures forall i :: 0 <= i < |draws| && (r.None? || i < used - 1) ==> !lim.InRange(Masked(lim, draws[i]))
    ensures r.None? ==> used == |draws|
    ensures IsPowerOf2(lim.maxLong) && 0 < |draws| ==> used == 1 && r.Some? && r.value < lim.maxLong
  {
    var isPowerOf2 := IsPowerOf2(lim.maxLong);
    used := 0;
    while used < |draws|
      invariant 0 <= used <= |draws|
      invariant forall i :: 0 <= i < used ==> !lim.InRange(Masked(lim, draws[i]))
      invariant isPowerOf2 ==> used == 0
    {
      var n := draws[used];
      if isPowerOf2 {
        n := And(n % Two64, lim.maxLong - 1);
        MaskedInRange(lim, draws[used]);
      }
      used := used + 1;
      if 0 <= n <= lim.maxLong {
        return Some(n), used;
      }
    }
    return None, used;
  }

  // ---------------------------------------------------------------------------
  // Case-insensitive comparison
  // ---------------------------------------------------------------------------

  /** tolower in the C locale: only A-Z change. */
  function ToLower(c: char): char {
    if 'A' <= c <= 'Z' then (c as int + 32) as char else c
  }

  function LowerCase(s: string): (r: string)
    ensures |r| == |s| && forall i :: 0 <= i < |s| ==> r[i] == ToLower(s[i])
  {
    seq(|s|, i requires 0 <= i < |s| => ToLower(s[i]))
  }

  /** The strings have equal length and agree character by character up to case. */
  predicate EqualIgnoringCase(a: string, b: string) {
    |a| == |b| && forall i :: 0 <= i < |a| ==> ToLower(a[i]) == ToLower(b[i])
  }

  /** insStringCompare: unequal lengths differ, otherwise compare position by position after tolower. */
  method InsStringCompare(a: string, b: string) returns (r: bool)
    ensures r <==> EqualIgnoringCase(a, b)
  {
    if |a| != |b| {
      return false;
    }
    var i := 0;
    while i < |b|
      invariant 0 <= i <= |b|
      invariant forall j :: 0 <= j < i ==> ToLower(a[j]) == ToLower(b[j])
    {
      if ToLower(b[i]) != ToLower(a[i]) {
        return false;
      }
      i := i + 1;
    }
    return true;
  }

  /** Comparing up to case is comparing the lower-cased strings, hence an equivalence. */
  lemma EqualIgnoringCaseIsLowerCaseEquality(a: string, b: string)
    ensures EqualIgnoringCase(a, b) <==> LowerCase(a) == LowerCase(b)
  {
    if LowerCase(a) == LowerCase(b) {
      assert |a| == |LowerCase(a)|;
      forall i | 0 <= i < |a| ensures ToLower(a[i]) == ToLower(b[i]) {
        assert LowerCase(a)[i] == LowerCase(b)[i];
      }
    }
  }

  lemma EqualIgnoringCaseEquivalence(a: string, b: string, c: string)
    ensures EqualIgnoringCase(a, a)
    ensures EqualIgnoringCase(a, b) ==> EqualIgnoringCase(b, a)
    ensures EqualIgnoringCase(a, b) && EqualIgnoringCase(b, c) ==> EqualIgnoringCase(a, c)
  {
  }

  // ---------------------------------------------------------------------------
  // Compression
  // ---------------------------------------------------------------------------

  datatype CompressionAlgorithm = GZIP | LZW | NOCOMPRESSION

  /** The zlib gzip implementation, which this model takes as given. */
  datatype Gzip = Gzip(deflate: seq<byte> -> seq<byte>, inflate: seq<byte> -> seq<byte>)

  ghost predicate GzipSound(g: Gzip) {
    forall d {:trigger g.deflate(d)} :: g.inflate(g.deflate(d)) == d
  }

  const CompressionFailed: Fault := Msl(GeneralKind, CompressionError)
  const UncompressionFailed: Fault := Msl(GeneralKind, UncompressionError)

  /** compress: only GZIP is supported; anything else surfaces as a compression error. */
  function Compress(g: Gzip, algo: CompressionAlgorithm, data: seq<byte>): (r: Result<seq<byte>>)
    ensures r.Ok? <==> algo == GZIP
    ensures r.Err? ==> r.fault == CompressionFailed
    ensures r.Ok? ==> r.value == g.deflate(data)
  {
    if algo == GZIP then Ok(g.deflate(data)) else Err(CompressionFailed)
  }

  /** uncompress: only GZIP is supported; anything else surfaces as an uncompression error. */
  function Uncompress(g: Gzip, algo: CompressionAlgorithm, data: seq<byte>): (r: Result<seq<byte>>)
    ensures r.Ok? <==> algo == GZIP
    ensures r.Err? ==> r.fault == UncompressionFailed
    ensures r.Ok? ==> r.value == g.inflate(data)
  {
    if algo == GZIP then Ok(g.inflate(data)) else Err(UncompressionFailed)
  }

  /** GZIP data uncompresses to what was compressed; other algorithms fail both ways. */
  lemma CompressionRoundTrip(g: Gzip, algo: CompressionAlgorithm, data: seq<byte>)
    requires GzipSound(g)
    ensures algo == GZIP ==> Uncompress(g, algo, Compress(g, algo, data).value) == Ok(data)
    ensures algo != GZIP ==> Compress(g, algo, data) == Err(CompressionFailed) &&
                             Uncompress(g, algo, data) == Err(UncompressionFailed)
  {
    if algo == GZIP {
      assert g.inflate(g.deflate(data)) == data;
    }
  }
}

=== FILE: preshared_key_store.dfy ===
/*******************************************************************************
 *  The test preshared key store: key sets indexed by entity identity.
 *******************************************************************************/

module PresharedKeyStore {
  import opened MslBase

  /** The encryption, HMAC and wrapping keys shared with one entity. */
  datatype KeySet = KeySet(encryptionKey: seq<byte>, hmacKey: seq<byte>, wrappingKey: seq<byte>)

  type Store = map<string, KeySet>

  const Empty: Store := map[]

  /** addKeys: registers the identity's key set, replacing any earlier one. */
  function AddKeys(s: Store, identity: string, encryptionKey: seq<byte>, hmacKey: seq<byte>, wrappingKey: seq<byte>): (r: Store)
    ensures identity in r && r[identity] == KeySet(encryptionKey, hmacKey, wrappingKey)
    ensures forall id :: id != identity ==> (id in r <==> id in s) && (id in s ==> r[id] == s[id])
  {
    s[identity := KeySet(encryptionKey, hmacKey, wrappingKey)]
  }

  /** clear: forgets every key set. */
  function Clear(s: Store): (r: Store)
    ensures forall id :: id !in r
  {
    Empty
  }

  /** getKeys: the identity's key set, or nothing when none was added. */
  function GetKeys(s: Store, identity: string): (r: Option<KeySet>)
    ensures r.Some? <==> identity in s
    ensures r.Some? ==> r.value == s[identity]
  {
    if identity in s then Some(s[identity]) else None
  }

  /**
   * A lookup sees the latest key set added for the identity, is unaffected by
   * keys added for other identities, and finds nothing after a clear.
   */
  lemma StoreBehaviour(s: Store, identity: string, other: string, e: seq<byte>, h: seq<byte>, w: seq<byte>)
    ensures GetKeys(AddKeys(s, identity, e, h, w), identity) == Some(KeySet(e, h, w))
    ensures other != identity ==> GetKeys(AddKeys(s, identity, e, h, w), other) == GetKeys(s, other)
    ensures GetKeys(Clear(s), identity).None?
    ensures AddKeys(AddKeys(s, identity, e, h, w), identity, e, h, w) == AddKeys(s, identity, e, h, w)
  {
  }
}

=== FILE: token_factory.dfy ===
/*******************************************************************************
 *  The reference token factory policy: master token and user ID token
 *  revocation, non-replayable ID acceptance with its catch-up and wrap-around
 *  windows, and token issue and renewal.
 *******************************************************************************/

module MockTokenFactory {
  import opened MslBase
  import opened EncodedObject
  import opened Tokens
  import EntityAuth

  /** A new token may be renewed this many milliseconds after issue. */
  const RenewalOffset: int := 60000
  /** A new token expires this many milliseconds after issue. */
  const ExpirationOffset: int := 120000

  /**
   * The factory's mutable policy state. A sequence number of -1 means renewal
   * increments the renewed token's own sequence number; any other value is the
   * counter renewal forces instead.
   */
  datatype FactoryState = FactoryState(
    sequenceNumber: int,
    revokedMasterToken: Option<MasterToken>,
    largestNonReplayableId: int,
    revokedUserIdToken: Option<UserIdToken>)

  /** A freshly constructed factory. */
  function Initial(): FactoryState {
    FactoryState(-1, None, 0, None)
  }

  /** The result of a policy call together with the factory state after it. */
  datatype Step<T> = Step(result: Result<T>, state: FactoryState)

  const Untrusted: Fault := Msl(MasterTokenKind, MasterTokenUntrusted)
  const OutOfRange: Fault := Msl(GeneralKind, NonReplayableIdOutOfRange)

  // ---------------------------------------------------------------------------
  // Revocation
  // ---------------------------------------------------------------------------

  /**
   * Reports a master token revoked when its identity is the identity of the
   * revoked master token; only trusted tokens can be checked.
   */
  function IsMasterTokenRevoked(st: FactoryState, mt: MasterToken): (r: Result<Option<Code>>)
    ensures !mt.decrypted <==> r == Err(Untrusted)
    ensures r.Ok? ==> r.value == None || r.value == Some(MasterTokenIdentityRevoked)
    ensures mt.decrypted ==>
      (r == Ok(Some(MasterTokenIdentityRevoked)) <==>
        st.revokedMasterToken.Some? && st.revokedMasterToken.value.identity == mt.identity)
  {
    if !mt.decrypted then Err(Untrusted)
    else if st.revokedMasterToken.Some? && mt.identity == st.revokedMasterToken.value.identity then
      Ok(Some(MasterTokenIdentityRevoked))
    else Ok(None)
  }

  /**
   * Reports a user ID token revoked when it equals the revoked user ID token;
   * only decrypted tokens can be checked.
   */
  function IsUserIdTokenRevoked(st: FactoryState, uit: UserIdToken): (r: Result<Option<Code>>)
    ensures !uit.decrypted <==> r == Err(Msl(UserIdTokenKind, UserIdTokenNotDecrypted))
    ensures r.Ok? ==> r.value == None || r.value == Some(UserIdTokenRevoked)
    ensures uit.decrypted ==>
      (r == Ok(Some(UserIdTokenRevoked)) <==>
        st.revokedUserIdToken.Some? && SameUserIdToken(uit, st.revokedUserIdToken.value))
  {
    if !uit.decrypted then Err(Msl(UserIdTokenKind, UserIdTokenNotDecrypted))
    else if st.revokedUserIdToken.Some? && SameUserIdToken(uit, st.revokedUserIdToken.value) then
      Ok(Some(UserIdTokenRevoked))
    else Ok(None)
  }

  /** Revocation compares token identity, not the user: another token of the same user is not revoked. */
  lemma SameUserOtherTokenNotRevoked(st: FactoryState, uit: UserIdToken)
    requires uit.decrypted && st.revokedUserIdToken.Some?
    requires uit.user == st.revokedUserIdToken.value.user
    requires uit.serialNumber != st.revokedUserIdToken.value.serialNumber
    ensures IsUserIdTokenRevoked(st, uit) == Ok(None)
  {
  }

  // ---------------------------------------------------------------------------
  // Non-replayable IDs
  // ---------------------------------------------------------------------------

  /**
   * Decides whether a non-replayable ID is accepted. A result of Ok(None)
   * accepts the ID and records it as the largest; Ok(Some(code)) rejects it
   * with the given reason and leaves the state alone.
   */
  function AcceptNonReplayableId(lim: Limits, st: FactoryState, mt: MasterToken, id: int): (s: Step<Option<Code>>)
    requires lim.Valid()
    ensures !mt.decrypted ==> s == Step(Err(Untrusted), st)
    ensures mt.decrypted && !lim.InRange(id) ==> s == Step(Err(OutOfRange), st)
    ensures s.result.Ok? ==>
      s.result.value in {None, Some(MessageReplayed), Some(MessageReplayedUnrecoverable)}
    ensures s.result == Ok(None) ==> s.state == st.(largestNonReplayableId := id)
    ensures s.result != Ok(None) ==> s.state == st
    ensures mt.decrypted && lim.InRange(id) ==>
      (st.largestNonReplayableId - lim.CatchupWindow() < id <= st.largestNonReplayableId ==>
         s.result == Ok(Some(MessageReplayed)))
    ensures mt.decrypted && lim.InRange(id) ==>
      (id > st.largestNonReplayableId + NonReplayableIdWindow ==>
         s.result == Ok(Some(MessageReplayedUnrecoverable)))
    ensures mt.decrypted && lim.InRange(id) ==>
      (st.largestNonReplayableId < id <= st.largestNonReplayableId + NonReplayableIdWindow ==>
         s == Step(Ok(None), st.(largestNonReplayableId := id)))
    ensures mt.decrypted && lim.InRange(id) ==>
      (id < st.largestNonReplayableId && id <= st.largestNonReplayableId - lim.CatchupWindow() &&
       id >= st.largestNonReplayableId - lim.maxLong + NonReplayableIdWindow ==>
         s.result == Ok(Some(MessageReplayedUnrecoverable)))
  {
    var largest := st.largestNonReplayableId;
    if !mt.decrypted then Step(Err(Untrusted), st)
    else if id < 0 || id > lim.maxLong then Step(Err(OutOfRange), st)
    else if id <= largest && id > largest - lim.CatchupWindow() then Step(Ok(Some(MessageReplayed)), st)
    else if id - NonReplayableIdWindow > largest then Step(Ok(Some(MessageReplayedUnrecoverable)), st)
    else if id < largest && id >= largest - lim.maxLong + NonReplayableIdWindow then
      Step(Ok(Some(MessageReplayedUnrecoverable)), st)
    else Step(Ok(None), st.(largestNonReplayableId := id))
  }

  /** True if the ID is accepted. */
  predicate Accepted(lim: Limits, st: FactoryState, mt: MasterToken, id: int)
    requires lim.Valid()
  {
    AcceptNonReplayableId(lim, st, mt, id).result == Ok(None)
  }

  /**
   * An accepted ID moves the largest ID forward by at most the window, or
   * wraps around from near the top of the ID space to near its bottom. An
   * exact repeat is accepted only when the catch-up window is empty.
   */
  lemma AcceptedIdsAdvance(lim: Limits, st: FactoryState, mt: MasterToken, id: int)
    requires lim.Valid()
    requires Accepted(lim, st, mt, id)
    ensures lim.InRange(id)
    ensures
      var largest := st.largestNonReplayableId;
      || largest < id <= largest + NonReplayableIdWindow
      || id < largest - lim.maxLong + NonReplayableIdWindow
      || (id == largest && lim.CatchupWindow() == 0)
  {
  }

  /**
   * The accepted IDs exactly: a trusted, in-range ID is accepted if and only
   * if it lies ahead of the largest by at most the window, repeats the
   * largest while the catch-up window is empty, or lies below both the
   * catch-up window and the wrap-around cutoff.
   */
  lemma AcceptedExactly(lim: Limits, st: FactoryState, mt: MasterToken, id: int)
    requires lim.Valid() && mt.decrypted && lim.InRange(id)
    ensures
      var largest := st.largestNonReplayableId;
      Accepted(lim, st, mt, id) <==>
        || largest < id <= largest + NonReplayableIdWindow
        || (id == largest && lim.CatchupWindow() == 0)
        || (id < largest && id <= largest - lim.CatchupWindow() && id < largest - lim.maxLong + NonReplayableIdWindow)
  {
  }

  /**
   * Away from the top of the ID space (largest no greater than MAX_LONG_VALUE
   * minus the window) no ID smaller than the largest is ever accepted.
   */
  lemma NoSmallerIdAccepted(lim: Limits, st: FactoryState, mt: MasterToken, id: int)
    requires lim.Valid()
    requires st.largestNonReplayableId <= lim.maxLong - NonReplayableIdWindow
    requires id < st.largestNonReplayableId
    ensures !Accepted(lim, st, mt, id)
  {
  }

  /**
   * Wrap-around: near the top of the ID space, a small ID below the cutoff
   * that is not inside the catch-up window is accepted.
   */
  lemma WrapAroundAccepted(lim: Limits, st: FactoryState, mt: MasterToken, id: int)
    requires lim.Valid() && mt.decrypted
    requires st.largestNonReplayableId <= lim.maxLong
    requires 0 <= id < st.largestNonReplayableId - lim.maxLong + NonReplayableIdWindow
    requires id <= st.largestNonReplayableId - lim.CatchupWindow()
    ensures Accepted(lim, st, mt, id)
    ensures AcceptNonReplayableId(lim, st, mt, id).state.largestNonReplayableId == id
  {
  }

  /** The acceptance window is inclusive: exactly the window ahead is accepted, one more is not. */
  lemma WindowBoundary(lim: Limits, st: FactoryState, mt: MasterToken)
    requires lim.Valid() && mt.decrypted
    requires 0 <= st.largestNonReplayableId
    requires st.largestNonReplayableId + NonReplayableIdWindow < lim.maxLong
    ensures Accepted(lim, st, mt, st.largestNonReplayableId + NonReplayableIdWindow)
    ensures AcceptNonReplayableId(lim, st, mt, st.largestNonReplayableId + NonReplayableIdWindow + 1).result
      == Ok(Some(MessageReplayedUnrecoverable))
  {
  }

  /**
   * The ID one step outside the catch-up window is not accepted either: away
   * from the top of the ID space it is unrecoverable.
   */
  lemma CatchupEdgeUnrecoverable(lim: Limits, st: FactoryState, mt: MasterToken)
    requires lim.Valid() && mt.decrypted
    requires 1 <= lim.CatchupWindow() <= st.largestNonReplayableId
    requires st.largestNonReplayableId <= lim.maxLong - NonReplayableIdWindow
    ensures AcceptNonReplayableId(lim, st, mt, st.largestNonReplayableId - lim.CatchupWindow()).result
      == Ok(Some(MessageReplayedUnrecoverable))
  {
  }

  /** Once an ID is accepted, presenting it again is a replay (given a non-empty catch-up window). */
  lemma AcceptedIdThenReplayed(lim: Limits, st: FactoryState, mt: MasterToken, id: int)
    requires lim.Valid() && 1 <= lim.CatchupWindow()
    requires Accepted(lim, st, mt, id)
    ensures AcceptNonReplayableId(lim, AcceptNonReplayableId(lim, st, mt, id).state, mt, id).result
      == Ok(Some(MessageReplayed))
  {
    var st' := AcceptNonReplayableId(lim, st, mt, id).state;
    assert st'.largestNonReplayableId == id;
  }

  /**
   * With the largest ID set to -1, which the setter documents as accepting
   * every ID, only IDs up to 65535 are accepted: larger ones are unrecoverable.
   */
  lemma MinusOneAcceptsOnlyWindow(lim: Limits, st: FactoryState, mt: MasterToken, id: int)
    requires lim.Valid() && mt.decrypted
    requires st.largestNonReplayableId == -1
    requires lim.InRange(id)
    ensures Accepted(lim, st, mt, id) <==> id < NonReplayableIdWindow
    ensures NonReplayableIdWindow <= id ==>
      AcceptNonReplayableId(lim, st, mt, id).result == Ok(Some(MessageReplayedUnrecoverable))
  {
  }

  // ---------------------------------------------------------------------------
  // Issue and renewal
  // ---------------------------------------------------------------------------

  /** Issuer data merge: the second object's fields override the first's. */
  function MergeIssuerData(a: Option<Object>, b: Option<Object>): (r: Option<Object>)
    ensures r.None? <==> a.None? && b.None?
    ensures r.Some? ==>
      forall k :: k in r.value <==> (a.Some? && k in a.value) || (b.Some? && k in b.value)
    ensures b.Some? ==> forall k :: k in b.value ==> k in r.value && r.value[k] == b.value[k]
    ensures a.Some? ==>
      forall k :: k in a.value && (b.None? || k !in b.value) ==> k in r.value && r.value[k] == a.value[k]
  {
    if a.None? then b
    else if b.None? then a
    else Some(a.value + b.value)
  }

  /** The sequence number after `n`: one more, wrapping to zero past MAX_LONG_VALUE. */
  function NextSequenceNumber(lim: Limits, n: int): (r: int)
    ensures lim.InRange(n) ==> lim.InRange(r)
    ensures n == lim.maxLong ==> r == 0
    ensures n != lim.maxLong ==> r == n + 1
  {
    if n == lim.maxLong then 0 else n + 1
  }

  /**
   * Issues a master token to the authenticated entity: sequence number zero,
   * the given random serial number, renewable after one minute and expiring
   * after two.
   */
  function CreateMasterToken(
    lim: Limits, now: int, entity: EntityAuth.EntityAuthData,
    encryptionKey: seq<byte>, hmacKey: seq<byte>, issuerData: Option<Object>, randomSerial: int): (mt: MasterToken)
    requires lim.InRange(randomSerial)
    ensures mt.sequenceNumber == 0 && mt.serialNumber == randomSerial && lim.InRange(mt.serialNumber)
    ensures mt.identity == EntityAuth.IdentityOf(entity)
    ensures mt.renewalWindow == now + RenewalOffset && mt.expiration == now + ExpirationOffset
    ensures mt.renewalWindow < mt.expiration
    ensures mt.encryptionKey == encryptionKey && mt.hmacKey == hmacKey && mt.issuerData == issuerData
    ensures mt.decrypted
  {
    MasterToken(now + RenewalOffset, now + ExpirationOffset, 0, randomSerial, issuerData,
                EntityAuth.IdentityOf(entity), encryptionKey, hmacKey, true)
  }

  /**
   * Renews a trusted master token: same serial number and identity, new keys,
   * merged issuer data, a fresh validity window and the next sequence number,
   * taken from the token itself or from the factory's forced counter.
   */
  function RenewMasterToken(
    lim: Limits, st: FactoryState, now: int, mt: MasterToken,
    encryptionKey: seq<byte>, hmacKey: seq<byte>, issuerData: Option<Object>): (s: Step<MasterToken>)
    ensures !mt.decrypted ==> s == Step(Err(Untrusted), st)
    ensures mt.decrypted ==> s.result.Ok?
    ensures s.result.Ok? ==>
      var t := s.result.value;
      && t.serialNumber == mt.serialNumber && t.identity == mt.identity
      && t.encryptionKey == encryptionKey && t.hmacKey == hmacKey
      && t.issuerData == MergeIssuerData(mt.issuerData, issuerData)
      && t.renewalWindow == now + RenewalOffset && t.expiration == now + ExpirationOffset
      && t.decrypted
    ensures s.result.Ok? && st.sequenceNumber == -1 ==>
      s.state == st && s.result.value.sequenceNumber == NextSequenceNumber(lim, mt.sequenceNumber)
    ensures s.result.Ok? && st.sequenceNumber != -1 ==>
      s.state == st.(sequenceNumber := NextSequenceNumber(lim, st.sequenceNumber)) &&
      s.result.value.sequenceNumber == s.state.sequenceNumber
  {
    if !mt.decrypted then Step(Err(Untrusted), st)
    else
      var merged := MergeIssuerData(mt.issuerData, issuerData);
      var st' := if st.sequenceNumber == -1 then st
                 else st.(sequenceNumber := NextSequenceNumber(lim, st.sequenceNumber));
      var sequence := if st.sequenceNumber == -1 then NextSequenceNumber(lim, mt.sequenceNumber)
                      else st'.sequenceNumber;
      var t := MasterToken(now + RenewalOffset, now + ExpirationOffset, sequence, mt.serialNumber, merged,
                           mt.identity, encryptionKey, hmacKey, true);
      Step(Ok(t), st')
  }

  /** Renewal keeps a token's sequence number inside the legal range and the counter with it. */
  lemma RenewalStaysInRange(
    lim: Limits, st: FactoryState, now: int, mt: MasterToken,
    encryptionKey: seq<byte>, hmacKey: seq<byte>, issuerData: Option<Object>)
    requires mt.decrypted && lim.InRange(mt.sequenceNumber)
    requires st.sequenceNumber == -1 || lim.InRange(st.sequenceNumber)
    ensures var s := RenewMasterToken(lim, st, now, mt, encryptionKey, hmacKey, issuerData);
      lim.InRange(s.result.value.sequenceNumber) &&
      (s.state.sequenceNumber == -1 || lim.InRange(s.state.sequenceNumber))
  {
  }

  /**
   * With a forced counter, two successive renewals (of any tokens) issue
   * consecutive sequence numbers, wrapping at MAX_LONG_VALUE.
   */
  lemma ForcedRenewalsConsecutive(
    lim: Limits, st: FactoryState, now: int, mt1: MasterToken, mt2: MasterToken,
    encryptionKey: seq<byte>, hmacKey: seq<byte>, issuerData: Option<Object>)
    requires mt1.decrypted && mt2.decrypted
    requires lim.InRange(st.sequenceNumber)
    ensures
      var s1 := RenewMasterToken(lim, st, now, mt1, encryptionKey, hmacKey, issuerData);
      var s2 := RenewMasterToken(lim, s1.state, now, mt2, encryptionKey, hmacKey, issuerData);
      s2.result.value.sequenceNumber == NextSequenceNumber(lim, s1.result.value.sequenceNumber)
  {
    var s1 := RenewMasterToken(lim, st, now, mt1, encryptionKey, hmacKey, issuerData);
    assert s1.state.sequenceNumber == NextSequenceNumber(lim, st.sequenceNumber);
    assert s1.state.sequenceNumber != -1;
  }

  /** Issues a user ID token for `user`, bound to `mt`, with no issuer data. */
  function CreateUserIdToken(lim: Limits, now: int, user: string, mt: MasterToken, randomSerial: int): (uit: UserIdToken)
    requires lim.InRange(randomSerial)
    ensures BoundTo(uit, Some(mt)) && uit.user == user
    ensures uit.serialNumber == randomSerial && uit.issuerData.None?
    ensures uit.renewalWindow == now + RenewalOffset && uit.expiration == now + ExpirationOffset
    ensures uit.decrypted
  {
    UserIdToken(now + RenewalOffset, now + ExpirationOffset, mt.serialNumber, randomSerial, None, user, true)
  }

  /**
   * Renews a decrypted user ID token: same serial number and user, bound to
   * the given master token, with no issuer data and a fresh validity window.
   */
  function RenewUserIdToken(now: int, uit: UserIdToken, mt: MasterToken): (r: Result<UserIdToken>)
    ensures !uit.decrypted <==> r == Err(Msl(UserIdTokenKind, UserIdTokenNotDecrypted))
    ensures r.Ok? ==>
      && BoundTo(r.value, Some(mt))
      && r.value.serialNumber == uit.serialNumber && r.value.user == uit.user
      && r.value.issuerData.None?
      && r.value.renewalWindow == now + RenewalOffset && r.value.expiration == now + ExpirationOffset
  {
    if !uit.decrypted then Err(Msl(UserIdTokenKind, UserIdTokenNotDecrypted))
    else Ok(UserIdToken(now + RenewalOffset, now + ExpirationOffset, mt.serialNumber, uit.serialNumber, None, uit.user, true))
  }

  /** A renewed user ID token is still the same token as far as revocation is concerned when rebound to the same master token. */
  lemma RenewedUserIdTokenKeepsRevocation(st: FactoryState, now: int, uit: UserIdToken, mt: MasterToken)
    requires uit.decrypted && uit.mtSerialNumber == mt.serialNumber
    ensures IsUserIdTokenRevoked(st, RenewUserIdToken(now, uit, mt).value) == IsUserIdTokenRevoked(st, uit)
  {
  }
}

=== FILE: tokens.dfy ===
/*******************************************************************************
 *  Master tokens and user ID tokens: the fields the core reads, the binding
 *  relation between them, the protocol's token equality, and a master token's
 *  encoded form.
 *******************************************************************************/

module Tokens {
  import opened MslBase
  import opened EncodedObject

  /**
   * A master token. `decrypted` records whether the holder could decrypt the
   * token's session data, which is what makes the token trusted.
   */
  datatype MasterToken = MasterToken(
    renewalWindow: int,
    expiration: int,
    sequenceNumber: int,
    serialNumber: int,
    issuerData: Option<Object>,
    identity: string,
    encryptionKey: seq<byte>,
    hmacKey: seq<byte>,
    decrypted: bool)

  /** A user ID token, bound to the master token whose serial number it carries. */
  datatype UserIdToken = UserIdToken(
    renewalWindow: int,
    expiration: int,
    mtSerialNumber: int,
    serialNumber: int,
    issuerData: Option<Object>,
    user: string,
    decrypted: bool)

  /** Master tokens are equal when serial number, sequence number and expiration agree. */
  predicate SameMasterToken(a: MasterToken, b: MasterToken) {
    a.serialNumber == b.serialNumber && a.sequenceNumber == b.sequenceNumber && a.expiration == b.expiration
  }

  /** User ID tokens are equal when their serial numbers and bound master token serial numbers agree. */
  predicate SameUserIdToken(a: UserIdToken, b: UserIdToken) {
    a.serialNumber == b.serialNumber && a.mtSerialNumber == b.mtSerialNumber
  }

  /** A user ID token is bound to a (present) master token with its recorded serial number. */
  predicate BoundTo(uit: UserIdToken, mt: Option<MasterToken>) {
    mt.Some? && uit.mtSerialNumber == mt.value.serialNumber
  }

  /** The token fields, as carried inside a master token's token data. */
  function TokenData(mt: MasterToken): Object {
    var base := map[
      "renewalwindow" := Num(mt.renewalWindow),
      "expiration" := Num(mt.expiration),
      "sequencenumber" := Num(mt.sequenceNumber),
      "serialnumber" := Num(mt.serialNumber),
      "identity" := Str(mt.identity),
      "encryptionkey" := Bytes(mt.encryptionKey),
      "hmackey" := Bytes(mt.hmacKey)];
    if mt.issuerData.Some? then base["issuerdata" := Obj(mt.issuerData.value)] else base
  }

  /** A master token's encoded form: its token data and a signature. */
  function EncodeMasterToken(mt: MasterToken): Object {
    map["tokendata" := Obj(TokenData(mt)), "signature" := Bytes([])]
  }

  /**
   * Reconstructs a master token from its encoded form. The holder of the
   * encoding keys can read every field, so a parsed token is decrypted.
   */
  function ParseMasterToken(o: Object): (r: Result<MasterToken>)
    ensures "tokendata" !in o ==> r == Err(ParseError)
    ensures r.Err? ==> r.fault == ParseError
  {
    var td :- GetObject(o, "tokendata");
    var _ :- GetBytes(o, "signature");
    var renewal :- GetNumber(td, "renewalwindow");
    var expiration :- GetNumber(td, "expiration");
    var sequence :- GetNumber(td, "sequencenumber");
    var serial :- GetNumber(td, "serialnumber");
    var identity :- GetString(td, "identity");
    var encryptionKey :- GetBytes(td, "encryptionkey");
    var hmacKey :- GetBytes(td, "hmackey");
    var issuerData :- GetOptObject(td, "issuerdata");
    Ok(MasterToken(renewal, expiration, sequence, serial, issuerData, identity, encryptionKey, hmacKey, true))
  }

  /** Parsing a decrypted master token's encoding gives the token back. */
  lemma MasterTokenRoundTrip(mt: MasterToken)
    requires mt.decrypted
    ensures ParseMasterToken(EncodeMasterToken(mt)) == Ok(mt)
  {
    var td := TokenData(mt);
    assert GetObject(EncodeMasterToken(mt), "tokendata") == Ok(td);
    assert GetBytes(EncodeMasterToken(mt), "signature") == Ok([]);
    assert GetNumber(td, "renewalwindow") == Ok(mt.renewalWindow);
    assert GetNumber(td, "expiration") == Ok(mt.expiration);
    assert GetNumber(td, "sequencenumber") == Ok(mt.sequenceNumber);
    assert GetNumber(td, "serialnumber") == Ok(mt.serialNumber);
    assert GetString(td, "identity") == Ok(mt.identity);
    assert GetBytes(td, "encryptionkey") == Ok(mt.encryptionKey);
    assert GetBytes(td, "hmackey") == Ok(mt.hmacKey);
    assert GetOptObject(td, "issuerdata") == Ok(mt.issuerData);
  }

  /** An empty object is not a master token. */
  lemma EmptyObjectIsNotMasterToken()
    ensures ParseMasterToken(map[]) == Err(ParseError)
  {
  }
}

=== FILE: user_auth.dfy ===
/*******************************************************************************
 *  Email/password user authentication: the factory's createData and its
 *  authenticate check against a credential store and an optional user ID token.
 *******************************************************************************/

module UserAuth {
  import opened MslBase
  import opened EncodedObject
  import opened Tokens

  /** Email/password user authentication data. */
  datatype UserAuthData = EmailPassword(email: string, password: string)

  function EncodeUserAuthData(d: UserAuthData): Object {
    map["email" := Str(d.email), "password" := Str(d.password)]
  }

  /** The email/password factory's createData. */
  function CreateData(o: Object): (r: Result<UserAuthData>)
    ensures "email" !in o || "password" !in o ==> r == Err(ParseError)
    ensures r.Ok? ==> Str(r.value.email) == o["email"] && Str(r.value.password) == o["password"]
  {
    var email :- GetString(o, "email");
    var password :- GetString(o, "password");
    Ok(EmailPassword(email, password))
  }

  /** createData reconstructs the datum its encoding came from. */
  lemma CreateDataRoundTrip(d: UserAuthData)
    ensures CreateData(EncodeUserAuthData(d)) == Ok(d)
  {
  }

  /** A registered user: the password and the user it authenticates as. */
  datatype Credential = Credential(password: string, user: string)

  /** The email/password store, indexed by email. */
  type CredentialStore = map<string, Credential>

  /** Registers (or replaces) a user. */
  function AddUser(store: CredentialStore, email: string, password: string, user: string): CredentialStore {
    store[email := Credential(password, user)]
  }

  /** The user the credentials identify, if the email is registered with that password. */
  function IsUser(store: CredentialStore, email: string, password: string): (r: Option<string>)
    ensures r.Some? <==> email in store && store[email].password == password
  {
    if email in store && store[email].password == password then Some(store[email].user) else None
  }

  const Blank: Fault := Msl(UserAuthKind, EmailPasswordBlank)
  const Incorrect: Fault := Msl(UserAuthKind, EmailPasswordIncorrect)
  const Mismatch: Fault := Msl(UserAuthKind, UserIdTokenUserAuthDataMismatch)

  /**
   * Authenticates the user: blank email or password first, then the
   * credential check, then agreement with the user ID token if one is given.
   */
  function Authenticate(store: CredentialStore, d: UserAuthData, uit: Option<UserIdToken>): (r: Result<string>)
    ensures d.email == "" || d.password == "" ==> r == Err(Blank)
    ensures d.email != "" && d.password != "" && IsUser(store, d.email, d.password).None? ==> r == Err(Incorrect)
    ensures (d.email != "" && d.password != "" && IsUser(store, d.email, d.password).Some? &&
             uit.Some? && uit.value.user != IsUser(store, d.email, d.password).value) ==> r == Err(Mismatch)
    ensures r.Ok? ==> d.email in store && store[d.email] == Credential(d.password, r.value)
    ensures r.Ok? && uit.Some? ==> uit.value.user == r.value
    ensures r.Err? ==> r.fault in {Blank, Incorrect, Mismatch}
  {
    if d.email == "" || d.password == "" then Err(Blank)
    else match IsUser(store, d.email, d.password)
      case None => Err(Incorrect)
      case Some(user) =>
        if uit.Some? && uit.value.user != user then Err(Mismatch)
        else Ok(user)
  }

  /**
   * A registered user authenticates with their password, with or without a
   * user ID token of their own; a wrong password or another user's token is
   * refused.
   */
  lemma AuthenticateRegistered(store: CredentialStore, email: string, password: string, user: string, uit: UserIdToken)
    requires email != "" && password != ""
    ensures var s := AddUser(store, email, password, user);
      && Authenticate(s, EmailPassword(email, password), None) == Ok(user)
      && (uit.user == user ==> Authenticate(s, EmailPassword(email, password), Some(uit)) == Ok(user))
      && (uit.user != user ==> Authenticate(s, EmailPassword(email, password), Some(uit)) == Err(Mismatch))
    ensures forall other :: other != password && other != "" ==>
      Authenticate(AddUser(store, email, password, user), EmailPassword(email, other), None) == Err(Incorrect)
  {
  }
}
